=== FILE: README.md ===
# JBoss packaging assembly, modelled in Dafny

This project models the decision logic of the JBoss packaging Maven plugin,
which builds service archives (SAR), hibernate archives (HAR) and ESB archives.
The plugin lays out an "exploded" packaging directory. It copies in the
compiled classes and makes sure `META-INF/<descriptor>` exists, taking the
descriptor from an override file or from an alternate name. It then copies the
selected runtime dependencies into `lib/`, renaming duplicates. Finally it may
archive the directory and register the archive with the project.

The filesystem is a value, `FileTrees.FileTree`: a map from path to file
content plus a set of directories. Each file operation of the plugin is a pure
update of that value. A copy whose source is not a regular file fails with an
I/O error. Every operation that can fail returns a `Results.Result`. Directory
creation and the classes copy cannot fail in the model. The failure cases are
the ones the plugin raises:
- the execution failure for a missing descriptor, with its exact message;
- the wrapped I/O failure "Could not explode JBoss packaging...";
- an archiver failure.

Modules, in dependency order:

- `Results`: `Option`, `Result` and the error kinds.
- `FileTrees`: the abstract filesystem and the library file operations: mkdirs, copyFile, copyFileToDirectory and copyDirectoryStructure.
- `JavaStrings`: `String.compareTo`, proved equal to the lexicographic order; `String.trim`, which cuts blank chars (at most U+0020) from both ends; joining names with a separator.
- `Artifacts`: resolved dependencies, the runtime scope filter, the `groupId:artifactId` key, and `stem[-classifier].ext` naming.
- `Policies`: what a package type supplies. This is its descriptor name, its alternate names (or null), its artifact type and its type-specific step.
- `Descriptors`: descriptor resolution in the `org.codehaus` base class.
- `Dependencies`: the dependency loop of the `org.codehaus` base class. It is a left fold that carries the set of used names, and it is proved equal to an independent reference definition.
- `Assembly`: steps and outcomes shared by both base classes. These are directory creation and the classes copy, I/O-failure wrapping, archive contents and registration.
- `Esb`: the ESB type and its `deployment.xml` step.
- `Packaging`: the `org.codehaus` base class. It covers the exploded build, archive naming, `performPackaging` with its registration branch, and `execute` dispatch.
- `Har`, `Sar`: the two package types built on that base.
- `LegacyPackaging`: the older `org.apache` base class. It has a single descriptor, a jar-only filter, copies under the original file name, no type-specific step, and unconditional registration.

The two generations of the base class are separate functions over the same
datatypes.

Three facts of the code that a reader might expect otherwise:
- The code has no `removeDependencyVersions` option. Lib file names always carry the version (codehaus `AbstractPackagingMojo.java:485`, `:490`).
- The code never removes an empty `lib` directory. `Packaging.BuildExplodedCreates` guarantees that the lib directory exists after every successful build.
- The HAR alternate `hibernate-service.xml` is copied to whatever descriptor name the JBoss version selects. Which name that is depends only on the first character of the version (see `Har.HibernateIffLeadingCharAtLeastFive`).

## Model

Paths in the source column are relative to the repository root.

| member | source | states |
|---|---|---|
| `Descriptors.ResolveDescriptor` | src/main/java/org/codehaus/mojo/jboss/packaging/AbstractPackagingMojo.java:277-316 | If `META-INF/<name>` already exists, nothing changes and the override and alternates are ignored. Otherwise an existing override is copied there, and that copy fails as I/O when the override is not a regular file. Otherwise, when some alternate is present in META-INF, the first present one is used: the step succeeds exactly when it is a regular file, copies its content to the canonical name, and no earlier alternate was present. If none of these exists, the result is the execution failure whose message lists every name tried. On success the descriptor exists and no other file changes. |
| `Descriptors.WithMetaInf` | src/main/java/org/codehaus/mojo/jboss/packaging/AbstractPackagingMojo.java:281-284 | Creating META-INF changes no file, and no entry inside META-INF appears or disappears, so the alternates search sees what it would have seen before. |
| `Descriptors.FirstPresent` | src/main/java/org/codehaus/mojo/jboss/packaging/AbstractPackagingMojo.java:295-306 | The alternates loop stops at the first name present in META-INF: the index found is present and no earlier one is. No index is found exactly when no alternate is present. |
| `Descriptors.TriedNamesListsEveryName` | src/main/java/org/codehaus/mojo/jboss/packaging/AbstractPackagingMojo.java:289-311 | The text the StringBuffer accumulates equals the primary name and then every alternate, in order, separated by ", ". |
| `Descriptors.ResolveIdempotent` | src/main/java/org/codehaus/mojo/jboss/packaging/AbstractPackagingMojo.java:277-279 | Resolving again on the tree a successful resolution produced changes nothing and reports the descriptor as already present. |
| `Descriptors.NoAlternatesNamesOnlyPrimary` | src/main/java/org/codehaus/mojo/jboss/packaging/AbstractPackagingMojo.java:286-311 | With null alternates, a missing descriptor and no usable override, the build fails with exactly "Could not find descriptor files: " followed by the primary name. |
| `Artifacts.IsEmpty` | src/main/java/org/codehaus/mojo/jboss/packaging/AbstractPackagingMojo.java:461 | Plexus `StringUtils.isEmpty`: true exactly when the string is null or `String.trim` reduces it to the empty string. |
| `JavaStrings.Trim` | src/main/java/org/codehaus/mojo/jboss/packaging/AbstractPackagingMojo.java:461 | `String.trim` never lengthens a string, and what it returns is empty or begins and ends with a char above U+0020. |
| `JavaStrings.TrimStripsBlankEnds` | src/main/java/org/codehaus/mojo/jboss/packaging/AbstractPackagingMojo.java:461 | The trimmed string is a contiguous piece of the input, and everything cut off before and after it is blank. |
| `JavaStrings.TrimEmptyIffBlank` | src/main/java/org/codehaus/mojo/jboss/packaging/AbstractPackagingMojo.java:461 | `String.trim` gives the empty string exactly when every char is at most U+0020, so a classifier of spaces is empty. |
| `Artifacts.Qualified` | src/main/java/org/codehaus/mojo/jboss/packaging/AbstractPackagingMojo.java:478-494 | The name starts with the stem and ends with "." + extension. When IsEmpty holds of the classifier (null, or blank after trimming) nothing lies between them. Otherwise exactly "-" + classifier, untrimmed, lies between them. |
| `Artifacts.QualifiedDeterminesClassifier` | src/main/java/org/codehaus/mojo/jboss/packaging/AbstractPackagingMojo.java:483-492 | For one stem and one extension, two names are equal exactly when their classifiers show the same, with null and empty alike. |
| `Artifacts.EmptyClassifierIsNoClassifier` | src/main/java/org/codehaus/mojo/jboss/packaging/AbstractPackagingMojo.java:483-486 | A blank classifier (empty, or only chars that `trim` strips) gives the same lib name as a null one, namely `artifactId-version.ext`. |
| `Artifacts.LibFileName` | src/main/java/org/codehaus/mojo/jboss/packaging/AbstractPackagingMojo.java:478-494 | A lib name starts with `artifactId-version`, ends with `.` + extension, and is exactly `artifactId-version.ext` when the classifier is null or blank, and exactly `artifactId-version-classifier.ext`, with the classifier untrimmed, otherwise. |
| `Dependencies.Select` | src/main/java/org/codehaus/mojo/jboss/packaging/AbstractPackagingMojo.java:325-351 | Every planned copy is of an input artifact that passes the filter, and there are at most as many copies as inputs. |
| `Dependencies.Step` | src/main/java/org/codehaus/mojo/jboss/packaging/AbstractPackagingMojo.java:327-345 | One loop iteration appends one copy exactly when the artifact is included and leaves earlier copies alone. The copy is of that artifact, keeps its lib name exactly when the name was not yet used, and the used-name set gains exactly that lib name. |
| `Dependencies.Included` | src/main/java/org/codehaus/mojo/jboss/packaging/AbstractPackagingMojo.java:328-333 | An included artifact is not optional, has compile or runtime scope and is added to the classpath. With excludeAll set, or with its `groupId:artifactId` excluded, nothing is included. |
| `Dependencies.SelectMatchesReference` | src/main/java/org/codehaus/mojo/jboss/packaging/AbstractPackagingMojo.java:325-345 | The fold copies exactly the included artifacts, in input order. Each is named by its lib name, prefixed with `groupId-` exactly when an earlier copied artifact has the same lib name. The used-name set holds exactly the unprefixed lib names. |
| `Dependencies.ChosenMembers` | src/main/java/org/codehaus/mojo/jboss/packaging/AbstractPackagingMojo.java:328-333 | The reference selection holds exactly the input artifacts that pass the filter. |
| `Dependencies.PlacedIffIncluded` | src/main/java/org/codehaus/mojo/jboss/packaging/AbstractPackagingMojo.java:328-345 | An artifact is copied exactly when all of these hold: it is in the input, it is not optional, its scope is compile or runtime, excludeAll is false, its handler adds it to the classpath, and `groupId:artifactId` is not excluded. |
| `Dependencies.ExcludeAllCopiesNothing` | src/main/java/org/codehaus/mojo/jboss/packaging/AbstractPackagingMojo.java:332-333 | With excludeAll set, no dependency is copied, whatever the artifacts and excludes. |
| `Dependencies.DuplicateGetsGroupPrefix` | src/main/java/org/codehaus/mojo/jboss/packaging/AbstractPackagingMojo.java:337-342 | A copied artifact whose lib name an earlier copied artifact already had is written as `groupId-name`. |
| `Dependencies.FreshNameKept` | src/main/java/org/codehaus/mojo/jboss/packaging/AbstractPackagingMojo.java:337-339 | A copied artifact whose lib name no earlier copied artifact had keeps that name unprefixed. |
| `Dependencies.TwoGroupsSameName` | src/main/java/org/codehaus/mojo/jboss/packaging/AbstractPackagingMojo.java:337-344 | `groupA:widget:1.0` and then `groupB:widget:1.0` are copied as `widget-1.0.jar` and `groupB-widget-1.0.jar`. |
| `Dependencies.PrefixedNameNotRechecked` | src/main/java/org/codehaus/mojo/jboss/packaging/AbstractPackagingMojo.java:337-344 | A prefixed name is never recorded or rechecked. After `com:x:1` and `org:x:1`, the artifact `z:org-x:1` gets the same name `org-x-1.jar` that the renamed `org:x:1` received. |
| `Dependencies.CopyPlacements` | src/main/java/org/codehaus/mojo/jboss/packaging/AbstractPackagingMojo.java:344 | A failed copy of a dependency is an I/O failure. |
| `Dependencies.CopyPlacementsSucceeds` | src/main/java/org/codehaus/mojo/jboss/packaging/AbstractPackagingMojo.java:344 | If every source exists beforehand, all copies succeed. |
| `Dependencies.CopyPlacementsGrows` | src/main/java/org/codehaus/mojo/jboss/packaging/AbstractPackagingMojo.java:344 | The copies remove no file and no directory. |
| `Dependencies.CopyPlacementsPlaces` | src/main/java/org/codehaus/mojo/jboss/packaging/AbstractPackagingMojo.java:344 | After the copies, every planned `lib/<name>` exists. |
| `Dependencies.CopyPlacementsOnlyLib` | src/main/java/org/codehaus/mojo/jboss/packaging/AbstractPackagingMojo.java:344 | The copies add no path other than the planned `lib/<name>` ones. |
| `Dependencies.CopyPlacementsKeeps` | src/main/java/org/codehaus/mojo/jboss/packaging/AbstractPackagingMojo.java:344 | A file that no copy targets keeps its content. |
| `Dependencies.FirstCopySurvives` | src/main/java/org/codehaus/mojo/jboss/packaging/AbstractPackagingMojo.java:344 | When no later copy uses the first name, the first lib file keeps the content of its source. |
| `Dependencies.LastCopyWins` | src/main/java/org/codehaus/mojo/jboss/packaging/AbstractPackagingMojo.java:344 | Suppose every source exists and none lies directly in lib. Then all copies succeed, and each lib file holds the content of the source of the last copy made under its name. |
| `FileTrees.CopyDirectoryStructure` | src/main/java/org/codehaus/mojo/jboss/packaging/AbstractPackagingMojo.java:274 | Every file below the source directory appears at the same relative place below the target, with the same content. No other file appears, and a file that is not a copy target keeps its content. |
| `Assembly.Prepare` | src/main/java/org/codehaus/mojo/jboss/packaging/AbstractPackagingMojo.java:266-275 | The packaging and lib directories exist afterwards. When the classes directory exists and is not the packaging directory, each file below it is copied to the same relative place below the packaging directory. The files afterwards are exactly the old ones plus those copies. A file that is not a copy target keeps its content. When no copy happens, no file changes. |
| `Assembly.WrapIo` | src/main/java/org/codehaus/mojo/jboss/packaging/AbstractPackagingMojo.java:371-374 | An I/O failure becomes exactly the execution failure "Could not explode JBoss packaging..." with the I/O failure's reason as cause. Any other failure passes through unchanged, and so does success. |
| `Packaging.RunHook` | src/main/java/org/codehaus/mojo/jboss/packaging/AbstractPackagingMojo.java:366-388 | The base step is a no-op that returns the tree unchanged, and so is the ESB step when no deployment.xml is configured. The ESB step is exactly `Esb.SpecificPackaging`: it fails exactly when its configured deployment.xml is missing. On success no file is removed, no file appears beyond the step's own target, and every other file keeps its content. |
| `Packaging.BuildExploded` | src/main/java/org/codehaus/mojo/jboss/packaging/AbstractPackagingMojo.java:256-375 | Every failure of the exploded build is an execution failure. The lemmas below state when it succeeds, what each failure is wrapped into, and what the tree holds. |
| `Packaging.BuildExplodedCreates` | src/main/java/org/codehaus/mojo/jboss/packaging/AbstractPackagingMojo.java:266-351 | After a successful build, the descriptor exists, the packaging and lib directories exist (lib is never removed), and every planned `lib/<name>` exists. |
| `Packaging.BuildExplodedOnlyAdds` | src/main/java/org/codehaus/mojo/jboss/packaging/AbstractPackagingMojo.java:256-370 | Every file present after a successful build is one of: a file of the staged tree, the descriptor, a planned lib file, or the type-specific target. |
| `Packaging.BuildExplodedFromSteps` | src/main/java/org/codehaus/mojo/jboss/packaging/AbstractPackagingMojo.java:256-375 | When the descriptor step, the dependency copies and the type-specific step all succeed, the build succeeds with the tree of the last step. |
| `Packaging.BuildExplodedSucceedsWhen` | src/main/java/org/codehaus/mojo/jboss/packaging/AbstractPackagingMojo.java:256-375 | The build succeeds when the descriptor step succeeds, every planned dependency file exists in the staged tree, and so does the configured deployment.xml. |
| `Packaging.LibCopyFailureIsWrapped` | src/main/java/org/codehaus/mojo/jboss/packaging/AbstractPackagingMojo.java:344-374 | A failed dependency copy ends the build with "Could not explode JBoss packaging..." and the copy's reason as cause. |
| `Packaging.HookFailureIsWrapped` | src/main/java/org/codehaus/mojo/jboss/packaging/AbstractPackagingMojo.java:366-374 | A failed type-specific step ends the build with "Could not explode JBoss packaging..." and the step's reason as cause. |
| `Packaging.BuildExplodedKeepsDescriptor` | src/main/java/org/codehaus/mojo/jboss/packaging/AbstractPackagingMojo.java:277-375 | A descriptor file the descriptor step left in place keeps its content to the end of a successful build, when lib is not META-INF and the type-specific step does not target it. |
| `Packaging.BuildExplodedLibContent` | src/main/java/org/codehaus/mojo/jboss/packaging/AbstractPackagingMojo.java:325-375 | Suppose every planned source exists in the staged tree, none lies directly in lib or is the descriptor, and the type-specific step does not target the lib file. Then after a successful build each lib file holds the staged content of the last dependency planned under its name. |
| `Packaging.DescriptorFailureAborts` | src/main/java/org/codehaus/mojo/jboss/packaging/AbstractPackagingMojo.java:309-312 | A failed descriptor step ends the build with the failure that `WrapIo` makes of it: an I/O failure becomes "Could not explode JBoss packaging..." with the I/O reason as cause, and the not-found failure passes unchanged. |
| `Packaging.NullExcludesAreEmpty` | src/main/java/org/codehaus/mojo/jboss/packaging/AbstractPackagingMojo.java:261-264 | A null exclude set gives the same build as the empty set. |
| `Packaging.ExcludeAllWritesNoDependency` | src/main/java/org/codehaus/mojo/jboss/packaging/AbstractPackagingMojo.java:332-345 | With excludeAll set, a successful build adds only the descriptor and the type-specific file to the staged tree. |
| `Packaging.StagedDescriptorIgnoresOverrideAndAlternates` | src/main/java/org/codehaus/mojo/jboss/packaging/AbstractPackagingMojo.java:272-279 | When the staged tree already has the descriptor (for instance from the classes copy), changing the override file or the alternates does not change the build. |
| `Packaging.CalculateFile` | src/main/java/org/codehaus/mojo/jboss/packaging/AbstractPackagingMojo.java:457-470 | The archive file lies directly in the output directory, and its name is `archiveName[-classifier].ext`, the classifier left out exactly when IsEmpty (null or blank after trimming) holds of it. |
| `Packaging.CalculateFileDeterminesClassifier` | src/main/java/org/codehaus/mojo/jboss/packaging/AbstractPackagingMojo.java:461-469 | Two archive files of one directory, name and extension coincide exactly when their classifiers show the same. |
| `Packaging.Register` | src/main/java/org/codehaus/mojo/jboss/packaging/AbstractPackagingMojo.java:435-444 | A set classifier, whatever its text, attaches the archive with that classifier and the handler's type. Without one, the archive becomes the primary artifact with the handler exactly when the build is primary, and otherwise nothing is registered. |
| `Packaging.PerformPackaging` | src/main/java/org/codehaus/mojo/jboss/packaging/AbstractPackagingMojo.java:409-445 | It succeeds exactly when the rebuilt exploded tree and the archiver both succeed. A failed build fails with the build's own error, and a failed archiver after a successful build fails with the archiver's error. The archive is the calculated file and holds every file below the packaging directory. A set classifier, even a blank one, attaches the archive. Otherwise a primary build sets the archive and its handler as the project's artifact, and a non-primary build registers nothing. |
| `Packaging.EmptyClassifierAttachesPlainName` | src/main/java/org/codehaus/mojo/jboss/packaging/AbstractPackagingMojo.java:418-438 | With a blank classifier (such as "" or " ") the archive is named `archiveName.ext`, yet it is attached with that classifier. |
| `Packaging.Execute` | src/main/java/org/codehaus/mojo/jboss/packaging/HarMojo.java:82-93 | When exploded, it runs only the exploded build, with the empty exclude set of the no-argument overload. It succeeds exactly when that build does, with the build's tree, no archive and no registration, and otherwise fails with the build's error unchanged. When not exploded it is `performPackaging`. |
| `Packaging.ExplodedIgnoresConfiguredExcludes` | src/main/java/org/codehaus/mojo/jboss/packaging/AbstractPackagingMojo.java:241-245 | In exploded mode, the configured excludes do not change the result. |
| `Esb.SpecificPackaging` | src/main/java/org/apache/maven/plugin/jboss/packaging/AbstractESBMojo.java:73-81 | With no deploymentXml the tree is unchanged. Otherwise the step succeeds exactly when that file exists, and copies it to `outputDirectory/META-INF/deployment.xml`, not below the packaging directory. No other file changes. |
| `Esb.SpecificPackagingIgnoresExcludes` | src/main/java/org/apache/maven/plugin/jboss/packaging/AbstractESBMojo.java:73-81 | The exclude set handed to the step has no effect on it. |
| `Esb.EsbPolicy` | src/main/java/org/apache/maven/plugin/jboss/packaging/AbstractESBMojo.java:91-104 | The descriptor is always `jboss-esb.xml`, the type is always `jboss-esb`, there are no alternates, and the specific step is the deployment.xml copy. |
| `JavaStrings.CompareTo` | src/main/java/org/codehaus/mojo/jboss/packaging/HarMojo.java:50 | `compareTo` returns 0 exactly when the two strings are equal. |
| `JavaStrings.CompareToAntisymmetric` | src/main/java/org/codehaus/mojo/jboss/packaging/HarMojo.java:50 | Swapping the operands negates the result. |
| `JavaStrings.CompareToIsLexicographic` | src/main/java/org/codehaus/mojo/jboss/packaging/HarMojo.java:50 | `a.compareTo(b) <= 0` holds exactly when `a` is a prefix of `b` or has the smaller char at their first difference. |
| `Har.DescriptorFilename` | src/main/java/org/codehaus/mojo/jboss/packaging/HarMojo.java:48-55 | The name is `jboss-hibernate.xml` exactly when a version is set and "5" is lexicographically at most that version. Otherwise it is `jboss-service.xml`. |
| `Har.HibernateIffLeadingCharAtLeastFive` | src/main/java/org/codehaus/mojo/jboss/packaging/HarMojo.java:50 | For a set version, `jboss-hibernate.xml` is chosen exactly when the version is non-empty and its first char is '5' or above. |
| `Har.ServiceDescriptorVersions` | src/main/java/org/codehaus/mojo/jboss/packaging/HarMojo.java:44-54 | An unset version, the default "4", and "10" all give `jboss-service.xml`. |
| `Har.HibernateDescriptorVersions` | src/main/java/org/codehaus/mojo/jboss/packaging/HarMojo.java:48-55 | The versions "5", "5.1" and "6" give `jboss-hibernate.xml`. |
| `Har.HarPolicy` | src/main/java/org/codehaus/mojo/jboss/packaging/HarMojo.java:48-75 | The descriptor depends on the version, the alternates are exactly `["hibernate-service.xml"]`, the type is `jboss-har`, and there is no specific step. |
| `Har.HibernateServiceStandsIn` | src/main/java/org/codehaus/mojo/jboss/packaging/HarMojo.java:62-65 | Suppose the descriptor is missing and no override is usable. Then a staged `META-INF/hibernate-service.xml` is copied to the descriptor name, and resolution succeeds. |
| `Har.Execute` | src/main/java/org/codehaus/mojo/jboss/packaging/HarMojo.java:82-93 | When exploded, only the exploded HAR build runs: on success the outcome is its tree with no archive and no registration, and on failure its error unchanged. Otherwise `performPackaging` runs. |
| `Sar.SarPolicy` | src/main/java/org/codehaus/mojo/jboss/packaging/SarMojo.java:38-58 | The descriptor is always `jboss-service.xml`, the alternates are inherited null, the type is `jboss-sar`, and there is no specific step. |
| `Sar.MissingDescriptorFails` | src/main/java/org/codehaus/mojo/jboss/packaging/SarMojo.java:45-48 | Suppose the staged tree lacks `META-INF/jboss-service.xml` and no override is usable. Then the SAR build fails with "Could not find descriptor files: jboss-service.xml" and nothing more. |
| `Sar.Execute` | src/main/java/org/codehaus/mojo/jboss/packaging/SarMojo.java:64-76 | When exploded, only the exploded SAR build runs: on success the outcome is its tree with no archive and no registration, and on failure its error unchanged. Otherwise `performPackaging` runs. |
| `LegacyPackaging.ResolvePackagingFile` | src/main/java/org/apache/maven/plugin/jboss/packaging/AbstractPackagingMojo.java:194-211 | An existing `META-INF/<name>` is kept. Otherwise a usable packaging file is copied there. Otherwise the build fails with "Could not find the <name> file.". No alternates are searched, only the descriptor may be added, and every other file keeps its content. |
| `LegacyPackaging.Copied` | src/main/java/org/apache/maven/plugin/jboss/packaging/AbstractPackagingMojo.java:221-227 | A copied dependency is not optional, has compile or runtime scope and type "jar". A dependency whose `groupId:artifactId` is excluded is not copied. |
| `LegacyPackaging.Selected` | src/main/java/org/apache/maven/plugin/jboss/packaging/AbstractPackagingMojo.java:218-237 | The selection is never longer than the dependency list. With SelectedMembers, SelectedAppend and SelectedSingle it is the dependencies that pass the copy test, in their original order. |
| `LegacyPackaging.SelectedMembers` | src/main/java/org/apache/maven/plugin/jboss/packaging/AbstractPackagingMojo.java:218-237 | The selection holds exactly the input dependencies that pass the copy test. |
| `LegacyPackaging.SelectedAppend` | src/main/java/org/apache/maven/plugin/jboss/packaging/AbstractPackagingMojo.java:218-237 | Selecting from a concatenation is selecting from each part, in order. |
| `LegacyPackaging.SelectedSingle` | src/main/java/org/apache/maven/plugin/jboss/packaging/AbstractPackagingMojo.java:222-235 | A single dependency is selected exactly when it passes the copy test. With SelectedAppend this makes the selection the ordered filter. |
| `LegacyPackaging.CopyAll` | src/main/java/org/apache/maven/plugin/jboss/packaging/AbstractPackagingMojo.java:230 | A failed copy of a dependency is an I/O failure. |
| `LegacyPackaging.CopyAllSucceeds` | src/main/java/org/apache/maven/plugin/jboss/packaging/AbstractPackagingMojo.java:230 | If every source is an existing file, all copies succeed. |
| `LegacyPackaging.CopyAllGrows` | src/main/java/org/apache/maven/plugin/jboss/packaging/AbstractPackagingMojo.java:230 | The copies remove no file and no directory. |
| `LegacyPackaging.CopyAllPlaces` | src/main/java/org/apache/maven/plugin/jboss/packaging/AbstractPackagingMojo.java:230 | After a successful run, `lib/<its own file name>` exists for every dependency. |
| `LegacyPackaging.CopyAllOnlyLib` | src/main/java/org/apache/maven/plugin/jboss/packaging/AbstractPackagingMojo.java:230 | The copies add no path other than `lib/<file name>` of some dependency. |
| `LegacyPackaging.CopyAllKeeps` | src/main/java/org/apache/maven/plugin/jboss/packaging/AbstractPackagingMojo.java:230 | A file that no copy lands on keeps its content. |
| `LegacyPackaging.CopyAllFirstSurvives` | src/main/java/org/apache/maven/plugin/jboss/packaging/AbstractPackagingMojo.java:230 | When no later dependency has the first one's file name, the first lib file keeps the content of its source. |
| `LegacyPackaging.CopyAllLastWins` | src/main/java/org/apache/maven/plugin/jboss/packaging/AbstractPackagingMojo.java:230 | Suppose every source exists and none lies directly in lib. Then all copies succeed, and each lib file holds the content of the last dependency with that file name. |
| `LegacyPackaging.BuildExploded` | src/main/java/org/apache/maven/plugin/jboss/packaging/AbstractPackagingMojo.java:173-259 | Every failure of the older exploded build is an execution failure. The lemmas below state when it succeeds, what each failure is, and what the tree holds. |
| `LegacyPackaging.BuildExplodedCreates` | src/main/java/org/apache/maven/plugin/jboss/packaging/AbstractPackagingMojo.java:183-237 | After a successful build, the packaging file exists below META-INF, the packaging and lib directories exist, and every selected jar is in lib under its own name. |
| `LegacyPackaging.BuildExplodedOnlyAdds` | src/main/java/org/apache/maven/plugin/jboss/packaging/AbstractPackagingMojo.java:173-237 | Every file present after a successful build is one of: a file of the staged tree, the packaging file, or a selected jar under its own name. No type-specific step writes anything. |
| `LegacyPackaging.NullExcludesAreEmpty` | src/main/java/org/apache/maven/plugin/jboss/packaging/AbstractPackagingMojo.java:178-181 | A null exclude set gives the same build as the empty set. |
| `LegacyPackaging.MissingPackagingFileFails` | src/main/java/org/apache/maven/plugin/jboss/packaging/AbstractPackagingMojo.java:196-206 | With no packaging file staged and none usable, the build fails with exactly "Could not find the <name> file.". |
| `LegacyPackaging.ResolveFailureIsWrapped` | src/main/java/org/apache/maven/plugin/jboss/packaging/AbstractPackagingMojo.java:194-257 | A failed packaging-file step ends the build, and no jar is copied. An I/O failure of the packaging-file copy becomes "Could not explode JBoss packaging..." with the I/O reason as cause, and the not-found failure passes unchanged. |
| `LegacyPackaging.BuildExplodedAfterResolve` | src/main/java/org/apache/maven/plugin/jboss/packaging/AbstractPackagingMojo.java:213-258 | Once the packaging-file step succeeds, the build is the wrapped jar copy on its tree. |
| `LegacyPackaging.BuildExplodedSucceedsWhen` | src/main/java/org/apache/maven/plugin/jboss/packaging/AbstractPackagingMojo.java:173-259 | The build succeeds when the packaging-file step succeeds and every selected jar exists in the staged tree. |
| `LegacyPackaging.CopyFailureIsWrapped` | src/main/java/org/apache/maven/plugin/jboss/packaging/AbstractPackagingMojo.java:230-258 | A failed jar copy ends the build with "Could not explode JBoss packaging..." and the copy's reason as cause. |
| `LegacyPackaging.BuildExplodedLibContent` | src/main/java/org/apache/maven/plugin/jboss/packaging/AbstractPackagingMojo.java:213-258 | Suppose the packaging-file step succeeds, and every selected source exists in the staged tree, none lies directly in lib or is the packaging file. Then the build succeeds, and each lib file holds the staged content of the last selected jar with that file name. |
| `LegacyPackaging.PerformPackaging` | src/main/java/org/apache/maven/plugin/jboss/packaging/AbstractPackagingMojo.java:274-288 | It succeeds exactly when the rebuilt exploded tree and the archiver both succeed. A failed build fails with its own error, and a failed archiver after a successful build with the archiver's error. On success it archives the packaging directory and always sets the archive as the project's artifact file, with no handler and no classifier branch. |

## Left out

- Real file and directory I/O. Files are opaque byte sequences in a map. The model does not cover copying onto an existing directory, mkdirs over an existing regular file, or a classes directory that is a regular file or contains the packaging directory; in that last case the model copies from the tree as it was before the copy.
- Archive writing (MavenArchiver, JarArchiver, MavenArchiveConfiguration) is library code. The archive is modelled as the map of files below the packaging directory. The archiver's failure is a parameter (`archiverFailure`). The manifest override (codehaus `AbstractPackagingMojo.java:428-431`) is not modelled.
- The artifact handler lookup (ArtifactHandlerManager) is foreign code. Its extension is an input: a field of each `Artifact`, and the `extension` parameter for the archive.
- `ScopeArtifactFilter(SCOPE_RUNTIME)` is library code. It is taken to admit exactly the compile and runtime scopes.
- `isExploded()` is not defined in the base class shown. It is the `exploded` input.
- Logging is not modelled. This includes the rejects list, which only feeds the "Excluded artifacts" listing.
- The alternates loop assigns its candidate to the `deploymentDescriptorFile` field. The model returns the chosen source instead, so the field keeps its configured value.
- ESBExplodedMojo is a one-line delegate to the exploded build.
- AbstractESBMojo declares the older base class as its superclass. That base neither declares nor calls `getDeploymentDescriptorFilename` or `buildSpecificPackaging`. The model gives ESB a `Policy` that plugs into the `org.codehaus` base's extension points, which those two names match.
- Java strings are UTF-16. Dafny `char` values are Unicode scalar values, so `CompareTo` agrees with Java only outside surrogate pairs.
- The iteration order of `project.getArtifacts()` is not modelled. The artifacts are given as a sequence in that order.
- Checked exception types are not modelled separately. `performPackaging` throws several checked exception types that `execute` does not declare. The model treats every one of them as a failed build.
- The abstract `execute` of the older base has no implementation in the files modelled, so there is no legacy `Execute`.
- Dependencies.CopyPlacementsSucceeds: success is promised only when every source exists beforehand. A source that an earlier copy creates inside lib is not characterized.
- BuildExploded (in `Packaging` and `LegacyPackaging`): the function's own contract states only that every failure is an execution failure. Success conditions, wrapped errors and contents are stated by the lemmas listed after it in the Model table.
- The partial tree of a failed build is not modelled. A failure returns only the error. In the plugin the directories, the classes copy, the descriptor copy and the earlier lib copies stay on disk. A rerun then finds that staged descriptor and ignores a corrected override.
- An IOException from `copyDirectoryStructure` (codehaus `AbstractPackagingMojo.java:274`, org.apache `:191`) is not modelled. The model's classes copy cannot fail.

=== FILE: artifacts.dfy ===
/** Resolved dependency artifacts, as the packaging build sees them. */
module Artifacts {
  import opened Results
  import opened FileTrees
  import opened JavaStrings

  datatype Scope = Compile | Runtime | Test | Provided | System

  /**
   * A resolved dependency. `extension` and `addedToClasspath` are the two
   * answers of its artifact handler; `file` is where the built binary lies.
   */
  datatype Artifact = Artifact(
    groupId: string,
    artifactId: string,
    version: string,
    classifier: Option<string>,
    extension: string,
    addedToClasspath: bool,
    artifactType: string,
    scope: Scope,
    optional: bool,
    file: Path)

  /** ScopeArtifactFilter for the runtime scope: compile and runtime dependencies pass. */
  predicate RuntimeScope(s: Scope) {
    s == Compile || s == Runtime
  }

  /** The `groupId:artifactId` key that exclusions are matched against. */
  function ExclusionKey(a: Artifact): string {
    a.groupId + ":" + a.artifactId
  }

  /** Plexus StringUtils.isEmpty: null, or a string that String.trim reduces to nothing. */
  predicate IsEmpty(s: Option<string>): (b: bool)
    ensures b <==> s.None? || Trim(s.value) == ""
  {
    TrimEmptyIffBlank(s.GetOr(""));
    s.None? || Blank(s.value)
  }

  /** The classifier as it shows in a file name: nothing when IsEmpty holds of it, else the classifier untrimmed. */
  function ClassifierText(s: Option<string>): string {
    if IsEmpty(s) then "" else s.value
  }

  /**
   * `stem[-classifier].extension`: the stem, then `-classifier` only when
   * IsEmpty does not hold of the classifier, then a dot and the extension.
   */
  function Qualified(stem: string, classifier: Option<string>, extension: string): (r: string)
    ensures |r| == |stem| + |ClassifierText(classifier)| + (if IsEmpty(classifier) then 0 else 1) + 1 + |extension|
    ensures r[..|stem|] == stem
    ensures r[|r| - |extension| - 1..] == "." + extension
    ensures !IsEmpty(classifier) ==> r[|stem|..|stem| + 1 + |classifier.value|] == "-" + classifier.value
  {
    if IsEmpty(classifier) then stem + "." + extension
    else stem + "-" + classifier.value + "." + extension
  }

  /** Two qualified names of one stem and extension agree exactly when their classifiers show the same. */
  lemma QualifiedDeterminesClassifier(stem: string, c1: Option<string>, c2: Option<string>, extension: string)
    ensures Qualified(stem, c1, extension) == Qualified(stem, c2, extension) <==> ClassifierText(c1) == ClassifierText(c2)
  {
    var e1, e2 := IsEmpty(c1), IsEmpty(c2);
    if !e1 && !e2 {
      DashedDetermines(stem, c1.value, c2.value, extension);
    }
  }

  /** Two dashed names of one stem and extension agree exactly when their middles do. */
  lemma DashedDetermines(stem: string, x1: string, x2: string, extension: string)
    ensures stem + "-" + x1 + "." + extension == stem + "-" + x2 + "." + extension <==> x1 == x2
  {
    var r1, r2 := stem + "-" + x1 + "." + extension, stem + "-" + x2 + "." + extension;
    if r1 == r2 {
      assert |x1| == |x2|;
      assert r1[|stem| + 1..|stem| + 1 + |x1|] == x1;
      assert r2[|stem| + 1..|stem| + 1 + |x2|] == x2;
    }
  }

  /** The name a dependency is copied into the lib directory under: `artifactId-version[-classifier].extension`. */
  function LibFileName(a: Artifact): (r: string)
    ensures |r| > |a.artifactId| + |a.version| + |a.extension| + 1
    ensures r[..|a.artifactId| + 1 + |a.version|] == a.artifactId + "-" + a.version
    ensures r[|r| - |a.extension| - 1..] == "." + a.extension
    ensures IsEmpty(a.classifier) ==> r == a.artifactId + "-" + a.version + "." + a.extension
    ensures !IsEmpty(a.classifier) ==> r == a.artifactId + "-" + a.version + "-" + a.classifier.value + "." + a.extension
  {
    Qualified(a.artifactId + "-" + a.version, a.classifier, a.extension)
  }

  /** A blank classifier (empty, or nothing but chars String.trim strips) gives the same lib file name as none. */
  lemma EmptyClassifierIsNoClassifier(a: Artifact)
    requires a.classifier.Some? && Blank(a.classifier.value)
    ensures LibFileName(a) == LibFileName(a.(classifier := None)) == a.artifactId + "-" + a.version + "." + a.extension
  {
  }
}

=== FILE: assembly.dfy ===
/** Steps and outcomes shared by both generations of the packaging base class. */
module Assembly {
  import opened Results
  import opened FileTrees

  const ExplodeFailure := "Could not explode JBoss packaging..."

  /**
   * The catch block around the exploded build: an I/O failure becomes an
   * execution failure carrying it as cause; any other result passes unchanged.
   */
  function WrapIo<T>(r: Result<T>): (w: Result<T>)
    ensures w.Success? <==> r.Success?
    ensures w.Success? ==> w.value == r.value
    ensures w.Failure? ==> w.error.ExecutionError? || w.error.ArchiveError?
    ensures r.Failure? && !r.error.IoError? ==> w == r
    ensures r.Failure? && r.error.IoError? ==> w == Failure(ExecutionError(ExplodeFailure, Some(r.error.reason)))
  {
    if r.Failure? && r.error.IoError? then Failure(ExecutionError(ExplodeFailure, Some(r.error.reason))) else r
  }

  /** The classes directory exists once the packaging and lib directories are made, and is not the packaging directory. */
  predicate CopiesClasses(t: FileTree, classes: Path, packaging: Path, lib: Path) {
    Exists(Mkdirs(Mkdirs(t, packaging), lib), classes) && classes != packaging
  }

  /**
   * The first steps of the exploded build: create the packaging and lib
   * directories, then copy the compiled classes in, unless the classes
   * directory does not exist or is the packaging directory itself.
   */
  function Prepare(t: FileTree, classes: Path, packaging: Path, lib: Path): (r: FileTree)
    ensures packaging in r.dirs && lib in r.dirs && t.dirs <= r.dirs
    ensures t.files.Keys <= r.files.Keys
    ensures CopiesClasses(t, classes, packaging, lib) ==>
              forall q :: q in t.files && Below(q, classes) ==>
                packaging + q[|classes|..] in r.files && r.files[packaging + q[|classes|..]] == t.files[q]
    ensures !CopiesClasses(t, classes, packaging, lib) ==> r.files == t.files
    // exactly the old files and the copies of the classes; nothing else changes content
    ensures forall q :: q in r.files <==> q in t.files || (CopiesClasses(t, classes, packaging, lib) && CopyTarget(t, q, classes, packaging))
    ensures forall q :: q in r.files && !(CopiesClasses(t, classes, packaging, lib) && CopyTarget(t, q, classes, packaging)) ==>
              r.files[q] == t.files[q]
  {
    var dirs := Mkdirs(Mkdirs(t, packaging), lib);
    if Exists(dirs, classes) && classes != packaging then CopyDirectoryStructure(dirs, classes, packaging) else dirs
  }

  /** The artifact handler registered with a primary archive. */
  datatype Handler = Handler(artifactType: string, extension: string)

  /** What the build tells the project about the archive it made. */
  datatype Registration =
    | NotRegistered
    /** Attached as a secondary artifact of the given type and classifier. */
    | Attached(artifactType: string, classifier: string, file: Path)
    /** Set as the project's own artifact file; the handler, when given, replaces the artifact's handler. */
    | Primary(file: Path, handler: Option<Handler>)

  /** An archive file and the entries it holds, keyed by path relative to the archived directory. */
  datatype Archive = Archive(file: Path, entries: map<Path, Content>)

  /** A finished build: the filesystem, the archive when one was made, and the registration. */
  datatype Outcome = Outcome(tree: FileTree, archive: Option<Archive>, registration: Registration)

  /** The archive of everything below `dir`, written to `file`. */
  function ArchiveOf(t: FileTree, dir: Path, file: Path): (a: Archive)
    ensures a.file == file
    ensures forall q :: q in t.files && Below(q, dir) ==> q[|dir|..] in a.entries && a.entries[q[|dir|..]] == t.files[q]
    ensures forall rel :: rel in a.entries ==> dir + rel in t.files && a.entries[rel] == t.files[dir + rel]
  {
    Archive(file, SubTree(t, dir))
  }
}

=== FILE: dependencies.dfy ===
/**
 * Dependency selection of the org.codehaus base class: a fold over the
 * resolved artifacts that keeps the included ones, names each
 * `artifactId-version[-classifier].ext`, and prefixes `groupId-` to a name
 * already used. Only unprefixed names are remembered, so a prefixed name is
 * never checked again.
 */
module Dependencies {
  import opened Results
  import opened FileTrees
  import opened Artifacts

  /** The first test of the loop: not optional and admitted by the runtime scope filter. */
  predicate Considered(a: Artifact) {
    !a.optional && RuntimeScope(a.scope)
  }

  /** Whether the artifact is copied into the lib directory. */
  predicate Included(a: Artifact, excludeAll: bool, excludes: set<string>): (b: bool)
    ensures b ==> !a.optional && RuntimeScope(a.scope) && a.addedToClasspath
    ensures excludeAll || ExclusionKey(a) in excludes ==> !b
  {
    Considered(a) && !excludeAll && a.addedToClasspath && ExclusionKey(a) !in excludes
  }

  /** One copy into the lib directory: which artifact, under which file name. */
  datatype Placement = Placement(artifact: Artifact, name: string)

  /** The loop's state: the copies planned so far and the set of names recorded as used. */
  datatype Selection = Selection(placements: seq<Placement>, used: set<string>)

  /** One iteration of the loop over the resolved artifacts. */
  function Step(s: Selection, a: Artifact, excludeAll: bool, excludes: set<string>): (r: Selection)
    // earlier copies are kept; one copy is added exactly for an included artifact
    ensures |r.placements| == |s.placements| + (if Included(a, excludeAll, excludes) then 1 else 0)
    ensures r.placements[..|s.placements|] == s.placements
    ensures Included(a, excludeAll, excludes) ==>
              && r.placements[|s.placements|].artifact == a
              && (r.placements[|s.placements|].name == LibFileName(a) <==> LibFileName(a) !in s.used)
    ensures r.used == if Included(a, excludeAll, excludes) then s.used + {LibFileName(a)} else s.used
  {
    if !Included(a, excludeAll, excludes) then s
    else
      var base := LibFileName(a);
      if base in s.used then Selection(s.placements + [Placement(a, a.groupId + "-" + base)], s.used)
      else Selection(s.placements + [Placement(a, base)], s.used + {base})
  }

  /** The whole loop, as a left fold of Step over the artifacts in iteration order. */
  function Select(artifacts: seq<Artifact>, excludeAll: bool, excludes: set<string>): (s: Selection)
    ensures |s.placements| <= |artifacts|
    ensures forall k :: 0 <= k < |s.placements| ==> Included(s.placements[k].artifact, excludeAll, excludes)
    ensures forall k :: 0 <= k < |s.placements| ==> s.placements[k].artifact in artifacts
    decreases |artifacts|
  {
    if |artifacts| == 0 then Selection([], {})
    else
      var init := artifacts[..|artifacts| - 1];
      Step(Select(init, excludeAll, excludes), artifacts[|artifacts| - 1], excludeAll, excludes)
  }

  /** Reference definition: the included artifacts, in order. */
  function Chosen(artifacts: seq<Artifact>, excludeAll: bool, excludes: set<string>): seq<Artifact>
    decreases |artifacts|
  {
    if |artifacts| == 0 then []
    else
      var last := artifacts[|artifacts| - 1];
      Chosen(artifacts[..|artifacts| - 1], excludeAll, excludes) + (if Included(last, excludeAll, excludes) then [last] else [])
  }

  /**
   * Reference definition of the k-th chosen artifact's file name: its lib
   * file name, prefixed with its groupId exactly when an earlier chosen
   * artifact has the same lib file name.
   */
  function ExpectedName(chosen: seq<Artifact>, k: nat): string
    requires k < |chosen|
  {
    var base := LibFileName(chosen[k]);
    if exists j :: 0 <= j < k && LibFileName(chosen[j]) == base then chosen[k].groupId + "-" + base else base
  }

  /** The chosen artifacts are exactly the included members of the input. */
  lemma {:induction false} ChosenMembers(artifacts: seq<Artifact>, excludeAll: bool, excludes: set<string>, a: Artifact)
    ensures a in Chosen(artifacts, excludeAll, excludes) <==> a in artifacts && Included(a, excludeAll, excludes)
    decreases |artifacts|
  {
    if |artifacts| > 0 {
      var init := artifacts[..|artifacts| - 1];
      ChosenMembers(init, excludeAll, excludes, a);
      assert artifacts == init + [artifacts[|artifacts| - 1]];
    }
  }

  /** The unprefixed lib file names of the chosen artifacts. */
  function BaseNames(chosen: seq<Artifact>): set<string> {
    set k | 0 <= k < |chosen| :: LibFileName(chosen[k])
  }

  /** The loop state agrees with the reference definitions for the chosen artifacts `c`. */
  predicate Agrees(s: Selection, c: seq<Artifact>) {
    && |s.placements| == |c|
    && (forall k :: 0 <= k < |c| ==> s.placements[k] == Placement(c[k], ExpectedName(c, k)))
    && s.used == BaseNames(c)
  }

  lemma BaseNamesAppend(c: seq<Artifact>, a: Artifact)
    ensures BaseNames(c + [a]) == BaseNames(c) + {LibFileName(a)}
  {
    var c' := c + [a];
    forall x | x in BaseNames(c) + {LibFileName(a)}
      ensures x in BaseNames(c')
    {
      if x == LibFileName(a) {
        assert LibFileName(c'[|c|]) == x;
      } else {
        var j :| 0 <= j < |c| && LibFileName(c[j]) == x;
        assert LibFileName(c'[j]) == x;
      }
    }
  }

  lemma ExpectedNameAppend(c: seq<Artifact>, a: Artifact, k: nat)
    requires k < |c|
    ensures ExpectedName(c + [a], k) == ExpectedName(c, k)
  {
    assert forall j :: 0 <= j <= k ==> (c + [a])[j] == c[j];
  }

  lemma ExpectedNameOfLast(c: seq<Artifact>, a: Artifact)
    ensures ExpectedName(c + [a], |c|) ==
            if LibFileName(a) in BaseNames(c) then a.groupId + "-" + LibFileName(a) else LibFileName(a)
  {
    var c' := c + [a];
    if LibFileName(a) in BaseNames(c) {
      var j :| 0 <= j < |c| && LibFileName(c[j]) == LibFileName(a);
      assert c'[j] == c[j];
    } else {
      forall j | 0 <= j < |c|
        ensures LibFileName(c'[j]) != LibFileName(a)
      {
        assert c'[j] == c[j];
      }
    }
  }

  /** One included artifact keeps the loop state in agreement with the reference. */
  lemma StepAgrees(s: Selection, c: seq<Artifact>, a: Artifact, excludeAll: bool, excludes: set<string>)
    requires Agrees(s, c)
    requires Included(a, excludeAll, excludes)
    ensures Agrees(Step(s, a, excludeAll, excludes), c + [a])
  {
    var s' := Step(s, a, excludeAll, excludes);
    BaseNamesAppend(c, a);
    ExpectedNameOfLast(c, a);
    forall k | 0 <= k < |c|
      ensures s'.placements[k] == Placement((c + [a])[k], ExpectedName(c + [a], k))
    {
      ExpectedNameAppend(c, a, k);
    }
  }

  /**
   * The fold copies the chosen artifacts in order, each under its expected
   * name, and records as used exactly the unprefixed lib file names.
   */
  lemma {:induction false} SelectMatchesReference(artifacts: seq<Artifact>, excludeAll: bool, excludes: set<string>)
    ensures Agrees(Select(artifacts, excludeAll, excludes), Chosen(artifacts, excludeAll, excludes))
    decreases |artifacts|
  {
    if |artifacts| > 0 {
      var init := artifacts[..|artifacts| - 1];
      var a := artifacts[|artifacts| - 1];
      SelectMatchesReference(init, excludeAll, excludes);
      var s0, c0 := Select(init, excludeAll, excludes), Chosen(init, excludeAll, excludes);
      assert Select(artifacts, excludeAll, excludes) == Step(s0, a, excludeAll, excludes);
      if Included(a, excludeAll, excludes) {
        assert Chosen(artifacts, excludeAll, excludes) == c0 + [a];
        StepAgrees(s0, c0, a, excludeAll, excludes);
      } else {
        assert Chosen(artifacts, excludeAll, excludes) == c0;
      }
    }
  }

  /** A dependency is copied exactly when it is in the input and passes every test of the filter. */
  lemma PlacedIffIncluded(artifacts: seq<Artifact>, excludeAll: bool, excludes: set<string>, a: Artifact)
    ensures (exists k :: 0 <= k < |Select(artifacts, excludeAll, excludes).placements|
                           && Select(artifacts, excludeAll, excludes).placements[k].artifact == a)
            <==> a in artifacts && Included(a, excludeAll, excludes)
  {
    SelectMatchesReference(artifacts, excludeAll, excludes);
    ChosenMembers(artifacts, excludeAll, excludes, a);
    var c := Chosen(artifacts, excludeAll, excludes);
    if a in c {
      var k :| 0 <= k < |c| && c[k] == a;
      assert Select(artifacts, excludeAll, excludes).placements[k].artifact == a;
    }
  }

  /** With excludeAll set, no dependency is copied. */
  lemma {:induction false} ExcludeAllCopiesNothing(artifacts: seq<Artifact>, excludes: set<string>)
    ensures Select(artifacts, true, excludes).placements == []
    decreases |artifacts|
  {
    if |artifacts| > 0 {
      ExcludeAllCopiesNothing(artifacts[..|artifacts| - 1], excludes);
    }
  }

  /** The first artifact of a lib file name keeps it; a later one with the same lib file name is written as `groupId-name`. */
  lemma DuplicateGetsGroupPrefix(artifacts: seq<Artifact>, excludeAll: bool, excludes: set<string>, i: nat, k: nat)
    requires i < k < |Select(artifacts, excludeAll, excludes).placements|
    requires LibFileName(Select(artifacts, excludeAll, excludes).placements[i].artifact)
             == LibFileName(Select(artifacts, excludeAll, excludes).placements[k].artifact)
    ensures var p := Select(artifacts, excludeAll, excludes).placements[k];
            p.name == p.artifact.groupId + "-" + LibFileName(p.artifact)
  {
    SelectMatchesReference(artifacts, excludeAll, excludes);
  }

  /** An artifact whose lib file name no earlier copied artifact has keeps that name unprefixed. */
  lemma FreshNameKept(artifacts: seq<Artifact>, excludeAll: bool, excludes: set<string>, k: nat)
    requires k < |Select(artifacts, excludeAll, excludes).placements|
    requires forall j :: 0 <= j < k ==> LibFileName(Select(artifacts, excludeAll, excludes).placements[j].artifact)
                                        != LibFileName(Select(artifacts, excludeAll, excludes).placements[k].artifact)
    ensures var p := Select(artifacts, excludeAll, excludes).placements[k];
            p.name == LibFileName(p.artifact)
  {
    SelectMatchesReference(artifacts, excludeAll, excludes);
  }

  /** A plain compile-scope jar on the classpath, stored at `file`. */
  function CompileJar(groupId: string, artifactId: string, version: string, file: Path): Artifact {
    Artifact(groupId, artifactId, version, None, "jar", true, "jar", Compile, false, file)
  }

  /** The fold over one more artifact is one more step. */
  lemma SelectSnoc(artifacts: seq<Artifact>, a: Artifact, excludeAll: bool, excludes: set<string>)
    ensures Select(artifacts + [a], excludeAll, excludes) == Step(Select(artifacts, excludeAll, excludes), a, excludeAll, excludes)
  {
    assert (artifacts + [a])[..|artifacts|] == artifacts;
  }

  /** The fold over two artifacts is two steps from the empty state. */
  lemma SelectTwo(a: Artifact, b: Artifact, excludeAll: bool, excludes: set<string>)
    ensures Select([a, b], excludeAll, excludes)
            == Step(Step(Selection([], {}), a, excludeAll, excludes), b, excludeAll, excludes)
  {
    var empty: seq<Artifact> := [];
    SelectSnoc(empty, a, excludeAll, excludes);
    SelectSnoc([a], b, excludeAll, excludes);
    assert empty + [a] == [a] && [a] + [b] == [a, b];
  }

  /** A compile jar without classifier is copied as `artifactId-version.jar`. */
  lemma CompileJarName(groupId: string, artifactId: string, version: string, file: Path)
    ensures LibFileName(CompileJar(groupId, artifactId, version, file)) == artifactId + "-" + version + ".jar"
  {
  }

  /** groupA:widget:1.0 and groupB:widget:1.0 are copied as widget-1.0.jar and groupB-widget-1.0.jar. */
  lemma TwoGroupsSameName()
    ensures var a := CompileJar("groupA", "widget", "1.0", ["a"]);
            var b := CompileJar("groupB", "widget", "1.0", ["b"]);
            Select([a, b], false, {}).placements
            == [Placement(a, "widget-1.0.jar"), Placement(b, "groupB-widget-1.0.jar")]
  {
    var a := CompileJar("groupA", "widget", "1.0", ["a"]);
    var b := CompileJar("groupB", "widget", "1.0", ["b"]);
    var name := "widget-1.0.jar";
    CompileJarName("groupA", "widget", "1.0", ["a"]);
    CompileJarName("groupB", "widget", "1.0", ["b"]);
    WidgetSpelling();
    SelectTwo(a, b, false, {});
    var s1 := Step(Selection([], {}), a, false, {});
    assert s1 == Selection([Placement(a, name)], {name});
  }

  /** The file names of the two-group scenario, spelled out. */
  lemma WidgetSpelling()
    ensures "widget" + "-" + "1.0" + ".jar" == "widget-1.0.jar"
    ensures "groupB" + "-" + "widget-1.0.jar" == "groupB-widget-1.0.jar"
  {
  }

  /**
   * The prefixed name is not checked again: after com:x:1 and org:x:1 (the
   * latter renamed org-x-1.jar), z:org-x:1 is also written as org-x-1.jar.
   */
  lemma PrefixedNameNotRechecked()
    ensures var a := CompileJar("com", "x", "1", ["a"]);
            var b := CompileJar("org", "x", "1", ["b"]);
            var d := CompileJar("z", "org-x", "1", ["d"]);
            var ps := Select([a, b, d], false, {}).placements;
            |ps| == 3 && ps[1].name == ps[2].name == "org-x-1.jar"
  {
    var a := CompileJar("com", "x", "1", ["a"]);
    var b := CompileJar("org", "x", "1", ["b"]);
    var d := CompileJar("z", "org-x", "1", ["d"]);
    var renamed := "org-x-1.jar";
    CompileJarName("com", "x", "1", ["a"]);
    CompileJarName("org", "x", "1", ["b"]);
    CompileJarName("z", "org-x", "1", ["d"]);
    RenamedSpelling();
    SelectTwo(a, b, false, {});
    var s2 := Select([a, b], false, {});
    assert s2.used == {"x-1.jar"} && |s2.placements| == 2 && s2.placements[1].name == renamed;
    SelectSnoc([a, b], d, false, {});
    assert [a, b] + [d] == [a, b, d];
  }

  /** The file names of the renaming scenario, spelled out. */
  lemma RenamedSpelling()
    ensures "x" + "-" + "1" + ".jar" == "x-1.jar"
    ensures "org-x" + "-" + "1" + ".jar" == "org-x-1.jar"
    ensures "org" + "-" + "x-1.jar" == "org-x-1.jar"
    ensures "org-x-1.jar" != "x-1.jar"
  {
  }

  /**
   * Copy the planned dependencies into `lib`, in order; the first copy whose
   * source is missing aborts with an I/O error.
   */
  function CopyPlacements(t: FileTree, lib: Path, ps: seq<Placement>): (r: Result<FileTree>)
    ensures r.Failure? ==> r.error.IoError?
    decreases |ps|
  {
    if |ps| == 0 then Success(t)
    else
      var next :- Copy(t, ps[0].artifact.file, lib + [ps[0].name]);
      CopyPlacements(next, lib, ps[1..])
  }

  /** The tree after the first copy of `ps`. */
  function AfterFirst(t: FileTree, lib: Path, ps: seq<Placement>): FileTree
    requires |ps| > 0 && ps[0].artifact.file in t.files
  {
    Copy(t, ps[0].artifact.file, lib + [ps[0].name]).value
  }

  /** The first copy, then the rest; nothing outside `lib` changes content. */
  lemma CopyFirst(t: FileTree, lib: Path, ps: seq<Placement>)
    requires |ps| > 0 && ps[0].artifact.file in t.files
    ensures CopyPlacements(t, lib, ps) == CopyPlacements(AfterFirst(t, lib, ps), lib, ps[1..])
    ensures t.files.Keys <= AfterFirst(t, lib, ps).files.Keys && t.dirs <= AfterFirst(t, lib, ps).dirs
    ensures lib + [ps[0].name] in AfterFirst(t, lib, ps).files
    ensures AfterFirst(t, lib, ps).files.Keys == t.files.Keys + {lib + [ps[0].name]}
    ensures forall q :: q in t.files && q != lib + [ps[0].name] ==> AfterFirst(t, lib, ps).files[q] == t.files[q]
    ensures forall q :: q in t.files && Parent(q) != lib ==> AfterFirst(t, lib, ps).files[q] == t.files[q]
  {
    var target := lib + [ps[0].name];
    assert Parent(target) == lib;
  }

  /** When every source exists beforehand, every copy succeeds. */
  lemma {:induction false} CopyPlacementsSucceeds(t: FileTree, lib: Path, ps: seq<Placement>)
    requires forall k :: 0 <= k < |ps| ==> ps[k].artifact.file in t.files
    ensures CopyPlacements(t, lib, ps).Success?
    decreases |ps|
  {
    if |ps| > 0 {
      CopyFirst(t, lib, ps);
      var rest := ps[1..];
      assert forall k :: 0 <= k < |rest| ==> rest[k] == ps[k + 1];
      CopyPlacementsSucceeds(AfterFirst(t, lib, ps), lib, rest);
    }
  }

  /** Copies only add files and directories. */
  lemma {:induction false} CopyPlacementsGrows(t: FileTree, lib: Path, ps: seq<Placement>)
    requires CopyPlacements(t, lib, ps).Success?
    ensures t.files.Keys <= CopyPlacements(t, lib, ps).value.files.Keys
    ensures t.dirs <= CopyPlacements(t, lib, ps).value.dirs
    decreases |ps|
  {
    if |ps| > 0 {
      CopyFirst(t, lib, ps);
      CopyPlacementsGrows(AfterFirst(t, lib, ps), lib, ps[1..]);
    }
  }

  /** After the copies, every planned `lib/<name>` exists. */
  lemma {:induction false} CopyPlacementsPlaces(t: FileTree, lib: Path, ps: seq<Placement>)
    requires CopyPlacements(t, lib, ps).Success?
    ensures forall k :: 0 <= k < |ps| ==> lib + [ps[k].name] in CopyPlacements(t, lib, ps).value.files
    decreases |ps|
  {
    if |ps| > 0 {
      var next, rest := AfterFirst(t, lib, ps), ps[1..];
      CopyFirst(t, lib, ps);
      CopyPlacementsGrows(next, lib, rest);
      CopyPlacementsPlaces(next, lib, rest);
      assert forall k :: 0 < k < |ps| ==> ps[k] == rest[k - 1];
    }
  }

  /** The copies add no path but the planned `lib/<name>` ones. */
  lemma {:induction false} CopyPlacementsOnlyLib(t: FileTree, lib: Path, ps: seq<Placement>)
    requires CopyPlacements(t, lib, ps).Success?
    ensures forall q :: q in CopyPlacements(t, lib, ps).value.files ==>
              q in t.files || exists k :: 0 <= k < |ps| && q == lib + [ps[k].name]
    decreases |ps|
  {
    if |ps| > 0 {
      var next, rest := AfterFirst(t, lib, ps), ps[1..];
      CopyFirst(t, lib, ps);
      CopyPlacementsOnlyLib(next, lib, rest);
      forall q | q in CopyPlacements(t, lib, ps).value.files && q !in t.files
        ensures exists k :: 0 <= k < |ps| && q == lib + [ps[k].name]
      {
        if q in next.files {
          assert q == lib + [ps[0].name];
        } else {
          var k :| 0 <= k < |rest| && q == lib + [rest[k].name];
          assert rest[k] == ps[k + 1];
        }
      }
    }
  }

  /** A file none of the copies targets keeps its content. */
  lemma {:induction false} CopyPlacementsKeeps(t: FileTree, lib: Path, ps: seq<Placement>, q: Path)
    requires CopyPlacements(t, lib, ps).Success?
    requires q in t.files && forall k :: 0 <= k < |ps| ==> q != lib + [ps[k].name]
    ensures q in CopyPlacements(t, lib, ps).value.files
    ensures CopyPlacements(t, lib, ps).value.files[q] == t.files[q]
    decreases |ps|
  {
    if |ps| > 0 {
      var next, rest := AfterFirst(t, lib, ps), ps[1..];
      CopyFirst(t, lib, ps);
      assert forall k :: 0 <= k < |rest| ==> rest[k] == ps[k + 1];
      CopyPlacementsKeeps(next, lib, rest, q);
    }
  }

  /** A copy no later placement overwrites survives the rest of the copies. */
  lemma FirstCopySurvives(t: FileTree, lib: Path, ps: seq<Placement>)
    requires |ps| > 0 && forall i :: 0 <= i < |ps| ==> ps[i].artifact.file in t.files
    requires forall j :: 0 < j < |ps| ==> ps[j].name != ps[0].name
    ensures CopyPlacements(t, lib, ps).Success? && lib + [ps[0].name] in CopyPlacements(t, lib, ps).value.files
    ensures CopyPlacements(t, lib, ps).value.files[lib + [ps[0].name]] == t.files[ps[0].artifact.file]
  {
    var target, next, rest := lib + [ps[0].name], AfterFirst(t, lib, ps), ps[1..];
    CopyPlacementsSucceeds(t, lib, ps);
    CopyFirst(t, lib, ps);
    forall j | 0 <= j < |rest|
      ensures target != lib + [rest[j].name]
    {
      assert rest[j] == ps[j + 1];
      assert (lib + [rest[j].name])[|lib|] == rest[j].name;
    }
    CopyPlacementsKeeps(next, lib, rest, target);
  }

  /**
   * When no source lies directly in `lib`, each lib file holds the content of
   * the last artifact placed under its name.
   */
  lemma {:induction false} LastCopyWins(t: FileTree, lib: Path, ps: seq<Placement>, k: nat)
    requires k < |ps|
    requires forall i :: 0 <= i < |ps| ==> ps[i].artifact.file in t.files && Parent(ps[i].artifact.file) != lib
    requires forall j :: k < j < |ps| ==> ps[j].name != ps[k].name
    ensures CopyPlacements(t, lib, ps).Success? && lib + [ps[k].name] in CopyPlacements(t, lib, ps).value.files
    ensures CopyPlacements(t, lib, ps).value.files[lib + [ps[k].name]] == t.files[ps[k].artifact.file]
    decreases |ps|
  {
    if k == 0 {
      FirstCopySurvives(t, lib, ps);
    } else {
      var next, rest, src := AfterFirst(t, lib, ps), ps[1..], ps[k].artifact.file;
      CopyFirst(t, lib, ps);
      forall i | 0 <= i < |rest|
        ensures rest[i].artifact.file in next.files && Parent(rest[i].artifact.file) != lib
      {
        assert rest[i] == ps[i + 1];
      }
      forall j | k - 1 < j < |rest|
        ensures rest[j].name != rest[k - 1].name
      {
        assert rest[j] == ps[j + 1];
      }
      LastCopyWins(next, lib, rest, k - 1);
      assert rest[k - 1] == ps[k];
      assert next.files[src] == t.files[src];
    }
  }
}

=== FILE: descriptor.dfy ===
/**
 * Deployment descriptor resolution of the org.codehaus base class: make sure
 * `META-INF/<descriptor>` exists below the packaging directory, taking it from
 * an explicit override file or from the first alternate name already staged
 * in META-INF.
 */
module Descriptors {
  import opened Results
  import opened FileTrees
  import opened JavaStrings

  const MetaInf := "META-INF"
  /** The descriptor of a SAR, and of a HAR for JBoss versions before 5. */
  const ServiceDescriptor := "jboss-service.xml"
  const NotFoundMessage := "Could not find descriptor files: "

  function MetaInfDir(root: Path): Path {
    root + [MetaInf]
  }

  /** Where the descriptor must end up: `root/META-INF/name`. */
  function Target(root: Path, name: string): Path {
    MetaInfDir(root) + [name]
  }

  /** The tree once META-INF exists below `root`; it is created only when absent. */
  function WithMetaInf(t: FileTree, root: Path): (r: FileTree)
    ensures r.files == t.files
    ensures forall x :: Exists(r, MetaInfDir(root) + [x]) <==> Exists(t, MetaInfDir(root) + [x])
  {
    if Exists(t, MetaInfDir(root)) then t else Mkdirs(t, MetaInfDir(root))
  }

  /** The index of the first of `names` present in `dir`, searching in order. */
  function FirstPresent(t: FileTree, dir: Path, names: seq<string>): (r: Option<nat>)
    ensures r.Some? ==> r.value < |names| && Exists(t, dir + [names[r.value]])
    ensures r.Some? ==> forall j :: 0 <= j < r.value ==> !Exists(t, dir + [names[j]])
    ensures r.None? ==> forall j :: 0 <= j < |names| ==> !Exists(t, dir + [names[j]])
  {
    if |names| == 0 then None
    else if Exists(t, dir + [names[0]]) then Some(0)
    else match FirstPresent(t, dir, names[1..])
      case None => None
      case Some(k) => Some(k + 1)
  }

  /** The search depends only on which entries of `dir` exist. */
  lemma {:induction false} FirstPresentSameEntries(t1: FileTree, t2: FileTree, dir: Path, names: seq<string>)
    requires forall x :: Exists(t1, dir + [x]) <==> Exists(t2, dir + [x])
    ensures FirstPresent(t1, dir, names) == FirstPresent(t2, dir, names)
    decreases |names|
  {
    if |names| > 0 {
      FirstPresentSameEntries(t1, t2, dir, names[1..]);
    }
  }

  /** The text the not-found message lists, built as the loop appends it: the primary name, then `, alt` per alternate. */
  function TriedNames(primary: string, alternates: seq<string>): string {
    if |alternates| == 0 then primary
    else TriedNames(primary, alternates[..|alternates| - 1]) + ", " + alternates[|alternates| - 1]
  }

  /** The not-found message names the primary and every alternate, in order, separated by ", ". */
  lemma {:induction false} TriedNamesListsEveryName(primary: string, alternates: seq<string>)
    ensures TriedNames(primary, alternates) == Join([primary] + alternates, ", ")
    decreases |alternates|
  {
    if |alternates| > 0 {
      var init := alternates[..|alternates| - 1];
      TriedNamesListsEveryName(primary, init);
      JoinAppend([primary] + init, alternates[|alternates| - 1], ", ");
      assert [primary] + alternates == ([primary] + init) + [alternates[|alternates| - 1]];
    }
  }

  /** Where the descriptor came from. */
  datatype Source =
    | AlreadyPresent
    | FromOverride(file: Path)
    | FromAlternate(name: string)

  datatype Resolution = Resolution(tree: FileTree, source: Source)

  /** The override file is set and exists once META-INF is in place. */
  predicate OverrideUsable(t: FileTree, root: Path, override: Option<Path>) {
    override.Some? && Exists(WithMetaInf(t, root), override.value)
  }

  /**
   * Resolve the descriptor `name` below `root`. An existing target is kept as
   * it is; otherwise an existing override is copied; otherwise the first
   * alternate present in META-INF is copied to the canonical name; otherwise
   * the build fails with a message naming every name tried. A copy whose
   * source is not a regular file fails with an I/O error.
   */
  function ResolveDescriptor(t: FileTree, root: Path, name: string, alternates: Option<seq<string>>, override: Option<Path>): (r: Result<Resolution>)
    // already staged (by an earlier run or by the classes copy): nothing happens
    ensures Exists(t, Target(root, name)) ==> r == Success(Resolution(t, AlreadyPresent))
    // an existing override wins over the alternates
    ensures !Exists(t, Target(root, name)) && OverrideUsable(t, root, override) ==>
              && (r.Success? <==> override.value in t.files)
              && (r.Success? ==>
                    && r.value.source == FromOverride(override.value)
                    && Target(root, name) in r.value.tree.files
                    && r.value.tree.files[Target(root, name)] == t.files[override.value])
    // otherwise the first alternate present in META-INF is copied to the canonical name
    ensures r.Success? && r.value.source.FromAlternate? ==>
              && !Exists(t, Target(root, name)) && !OverrideUsable(t, root, override)
              && exists k :: 0 <= k < |alternates.GetOr([])| && alternates.GetOr([])[k] == r.value.source.name
                   && MetaInfDir(root) + [alternates.GetOr([])[k]] in t.files
                   && Target(root, name) in r.value.tree.files
                   && r.value.tree.files[Target(root, name)] == t.files[MetaInfDir(root) + [alternates.GetOr([])[k]]]
                   && forall j :: 0 <= j < k ==> !Exists(t, MetaInfDir(root) + [alternates.GetOr([])[j]])
    // and the first alternate present in META-INF is the one used, whenever it is a regular file
    ensures var found := FirstPresent(t, MetaInfDir(root), alternates.GetOr([]));
            !Exists(t, Target(root, name)) && !OverrideUsable(t, root, override) && found.Some? ==>
              && (r.Success? <==> MetaInfDir(root) + [alternates.GetOr([])[found.value]] in t.files)
              && (r.Success? ==> r.value.source == FromAlternate(alternates.GetOr([])[found.value]))
    // nothing found: the build fails naming every name tried
    ensures (r.Failure? && r.error.ExecutionError?) <==>
              && !Exists(t, Target(root, name)) && !OverrideUsable(t, root, override)
              && forall j :: 0 <= j < |alternates.GetOr([])| ==> !Exists(t, MetaInfDir(root) + [alternates.GetOr([])[j]])
    ensures r.Failure? && r.error.ExecutionError? ==>
              r.error == ExecutionError(NotFoundMessage + TriedNames(name, alternates.GetOr([])), None)
    ensures r.Failure? ==> r.error.IoError? || r.error.ExecutionError?
    // success: the descriptor exists, and at most that one file changed
    ensures r.Success? ==> Exists(r.value.tree, Target(root, name)) && t.dirs <= r.value.tree.dirs
    ensures r.Success? ==> forall q :: q != Target(root, name) ==>
              && (q in r.value.tree.files <==> q in t.files)
              && (q in t.files ==> r.value.tree.files[q] == t.files[q])
  {
    var target := Target(root, name);
    if Exists(t, target) then
      Success(Resolution(t, AlreadyPresent))
    else
      var prepared := WithMetaInf(t, root);
      if OverrideUsable(t, root, override) then
        var copied :- Copy(prepared, override.value, target);
        Success(Resolution(copied, FromOverride(override.value)))
      else
        var names := alternates.GetOr([]);
        FirstPresentSameEntries(prepared, t, MetaInfDir(root), names);
        match FirstPresent(prepared, MetaInfDir(root), names)
        case None =>
          Failure(ExecutionError(NotFoundMessage + TriedNames(name, names), None))
        case Some(k) =>
          var copied :- Copy(prepared, MetaInfDir(root) + [names[k]], target);
          Success(Resolution(copied, FromAlternate(names[k])))
  }

  /** Resolving twice is resolving once: the second run finds the descriptor and changes nothing. */
  lemma ResolveIdempotent(t: FileTree, root: Path, name: string, alternates: Option<seq<string>>, override: Option<Path>)
    requires ResolveDescriptor(t, root, name, alternates, override).Success?
    ensures var t' := ResolveDescriptor(t, root, name, alternates, override).value.tree;
            ResolveDescriptor(t', root, name, alternates, override) == Success(Resolution(t', AlreadyPresent))
  {
  }

  /** With no alternates configured (null), a missing descriptor without a usable override fails naming only the primary. */
  lemma NoAlternatesNamesOnlyPrimary(t: FileTree, root: Path, name: string, override: Option<Path>)
    requires !Exists(t, Target(root, name)) && !OverrideUsable(t, root, override)
    ensures ResolveDescriptor(t, root, name, None, override) == Failure(ExecutionError(NotFoundMessage + name, None))
  {
  }
}

=== FILE: esb.dfy ===
/** The ESB archive type: its descriptor, its artifact type and its deployment.xml step. */
module Esb {
  import opened Results
  import opened FileTrees
  import opened Policies
  import opened Descriptors

  const JbossEsbXml := "jboss-esb.xml"
  const DeploymentXml := "deployment.xml"
  const ArtifactType := "jboss-esb"

  /** Where deployment.xml is written: META-INF below the output directory, not below the packaging directory. */
  function DeploymentXmlTarget(outputDirectory: Path): Path {
    outputDirectory + [MetaInf, DeploymentXml]
  }

  /**
   * The ESB specific packaging step: copy the configured deployment.xml, when
   * one is set, to `outputDirectory/META-INF/deployment.xml`. The exclude set
   * it is handed plays no part.
   */
  function SpecificPackaging(t: FileTree, outputDirectory: Path, deploymentXml: Option<Path>, excludes: set<string>): (r: Result<FileTree>)
    ensures deploymentXml.None? ==> r == Success(t)
    ensures deploymentXml.Some? ==> (r.Success? <==> deploymentXml.value in t.files)
    ensures r.Failure? ==> r.error.IoError?
    ensures r.Success? && deploymentXml.Some? ==>
              && DeploymentXmlTarget(outputDirectory) in r.value.files
              && r.value.files[DeploymentXmlTarget(outputDirectory)] == t.files[deploymentXml.value]
    ensures r.Success? ==> t.dirs <= r.value.dirs
    ensures r.Success? ==> forall q :: q != DeploymentXmlTarget(outputDirectory) ==>
              && (q in r.value.files <==> q in t.files)
              && (q in t.files ==> r.value.files[q] == t.files[q])
  {
    if deploymentXml.Some? then Copy(t, deploymentXml.value, DeploymentXmlTarget(outputDirectory)) else Success(t)
  }

  /** Only deploymentXml matters to the step: any two exclude sets give the same result. */
  lemma SpecificPackagingIgnoresExcludes(t: FileTree, outputDirectory: Path, deploymentXml: Option<Path>, e1: set<string>, e2: set<string>)
    ensures SpecificPackaging(t, outputDirectory, deploymentXml, e1) == SpecificPackaging(t, outputDirectory, deploymentXml, e2)
  {
  }

  /** The ESB package type: descriptor jboss-esb.xml, type jboss-esb, no alternates, the deployment.xml step. */
  function EsbPolicy(deploymentXml: Option<Path>): (p: Policy)
    ensures p.descriptorName == "jboss-esb.xml"
    ensures p.artifactType == "jboss-esb"
    ensures p.alternates.None?
    ensures p.hook == DeploymentXmlHook(deploymentXml)
  {
    Policy(JbossEsbXml, None, ArtifactType, DeploymentXmlHook(deploymentXml))
  }
}

=== FILE: file_tree.dfy ===
/**
 * An abstract filesystem: regular files with their contents, and the set of
 * directories that exist. The file operations of the packaging build
 * (mkdirs, copyFile, copyFileToDirectory, copyDirectoryStructure) are pure
 * updates of this value.
 */
module FileTrees {
  import opened Results

  newtype byte = x: int | 0 <= x < 256

  /** The bytes of a regular file. */
  type Content = seq<byte>

  /** An absolute path as its sequence of name components; `[]` is the root. */
  type Path = seq<string>

  datatype FileTree = FileTree(files: map<Path, Content>, dirs: set<Path>)

  /** java.io.File.exists: a regular file or a directory is at `p`. */
  predicate Exists(t: FileTree, p: Path) {
    p in t.files || p in t.dirs
  }

  /** `inner` lies strictly below the directory `dir`. */
  predicate Below(inner: Path, dir: Path) {
    |dir| < |inner| && inner[..|dir|] == dir
  }

  /** The directory holding `p` (the root for the root itself). */
  function Parent(p: Path): Path {
    if |p| == 0 then [] else p[..|p| - 1]
  }

  /** The last name component of `p`: java.io.File.getName. */
  function FileName(p: Path): string
    requires |p| > 0
  {
    p[|p| - 1]
  }

  /** `p` and every directory above it, the root included. */
  function Ancestry(p: Path): (r: set<Path>)
    ensures p in r
    ensures forall q :: q in r ==> |q| <= |p| && q == p[..|q|]
  {
    assert p[..|p|] == p;
    set i | 0 <= i <= |p| :: p[..i]
  }

  /** java.io.File.mkdirs: `p` and its missing ancestors become directories; files are untouched. */
  function Mkdirs(t: FileTree, p: Path): (r: FileTree)
    ensures r.files == t.files
    ensures p in r.dirs && t.dirs <= r.dirs
    ensures forall q :: q in r.dirs && q !in t.dirs ==> |q| <= |p| && q == p[..|q|]
  {
    t.(dirs := t.dirs + Ancestry(p))
  }

  /**
   * FileUtils.copyFile: fails unless `src` is an existing regular file;
   * otherwise `dst` receives the content of `src`, its parent directories are
   * created, and no other file changes.
   */
  function Copy(t: FileTree, src: Path, dst: Path): (r: Result<FileTree>)
    ensures r.Success? <==> src in t.files
    ensures r.Failure? ==> r.error.IoError?
    ensures r.Success? ==> r.value.files.Keys == t.files.Keys + {dst}
    ensures r.Success? ==> r.value.files[dst] == t.files[src]
    ensures r.Success? ==> forall q :: q in t.files && q != dst ==> r.value.files[q] == t.files[q]
    ensures r.Success? ==> t.dirs <= r.value.dirs
  {
    if src !in t.files then
      Failure(IoError("source file does not exist"))
    else
      Success(FileTree(t.files[dst := t.files[src]], Mkdirs(t, Parent(dst)).dirs))
  }

  /** FileUtils.copyFileToDirectory: a copy into `dir` under the source's own file name. */
  function CopyToDirectory(t: FileTree, src: Path, dir: Path): (r: Result<FileTree>)
    ensures r.Success? <==> src in t.files && |src| > 0
    ensures r.Failure? ==> r.error.IoError?
    ensures r.Success? ==> r.value.files.Keys == t.files.Keys + {dir + [FileName(src)]}
    ensures r.Success? ==> r.value.files[dir + [FileName(src)]] == t.files[src]
    ensures r.Success? ==> forall q :: q in t.files && q != dir + [FileName(src)] ==> r.value.files[q] == t.files[q]
    ensures r.Success? ==> t.dirs <= r.value.dirs
  {
    if |src| == 0 then
      Failure(IoError("source file does not exist"))
    else
      Copy(t, src, dir + [FileName(src)])
  }

  /** Every regular file below `dir`, keyed by its path relative to `dir`. */
  function SubTree(t: FileTree, dir: Path): (r: map<Path, Content>)
    ensures forall q :: q in t.files && Below(q, dir) ==> q[|dir|..] in r && r[q[|dir|..]] == t.files[q]
    ensures forall rel :: rel in r ==> rel != [] && dir + rel in t.files && t.files[dir + rel] == r[rel]
  {
    var rels := set q | q in t.files && Below(q, dir) :: q[|dir|..];
    var r := map rel | rel in rels && rel != [] && dir + rel in t.files :: t.files[dir + rel];
    assert forall q :: q in t.files && Below(q, dir) ==> dir + q[|dir|..] == q;
    r
  }

  /** The path at the same place relative to `to` as `q` has relative to `from`. */
  function Rebase(q: Path, from: Path, to: Path): Path
    requires |from| <= |q|
  {
    to + q[|from|..]
  }

  /** Rebasing paths below one directory keeps distinct paths distinct. */
  lemma RebaseInjective(q1: Path, q2: Path, from: Path, to: Path)
    requires Below(q1, from) && Below(q2, from)
    requires Rebase(q1, from, to) == Rebase(q2, from, to)
    ensures q1 == q2
  {
    assert q1 == from + q1[|from|..];
    assert q2 == from + q2[|from|..];
    assert q1[|from|..] == Rebase(q1, from, to)[|to|..];
  }

  /** `q` lies below `to` at a place whose counterpart below `from` holds a file. */
  predicate CopyTarget(t: FileTree, q: Path, from: Path, to: Path) {
    Below(q, to) && from + q[|to|..] in t.files
  }

  /**
   * FileUtils.copyDirectoryStructure: every file and directory below `from`
   * is copied to the same relative place below `to`, overwriting what was
   * there; everything else is kept.
   */
  function CopyDirectoryStructure(t: FileTree, from: Path, to: Path): (r: FileTree)
    ensures forall q :: q in t.files && Below(q, from) ==> to + q[|from|..] in r.files && r.files[to + q[|from|..]] == t.files[q]
    ensures t.files.Keys <= r.files.Keys && t.dirs <= r.dirs && to in r.dirs
    // exactly the files that were there and the copies; untargeted files keep their content
    ensures forall q :: q in r.files <==> q in t.files || CopyTarget(t, q, from, to)
    ensures forall q :: CopyTarget(t, q, from, to) ==> r.files[q] == t.files[from + q[|to|..]]
    ensures forall q :: q in r.files && !CopyTarget(t, q, from, to) ==> r.files[q] == t.files[q]
  {
    forall q1, q2 | q1 in t.files && Below(q1, from) && q2 in t.files && Below(q2, from) && Rebase(q1, from, to) == Rebase(q2, from, to)
      ensures q1 == q2
    {
      RebaseInjective(q1, q2, from, to);
    }
    var moved := map q | q in t.files && Below(q, from) :: Rebase(q, from, to) := t.files[q];
    forall q | CopyTarget(t, q, from, to)
      ensures q in moved && moved[q] == t.files[from + q[|to|..]]
    {
      var p := from + q[|to|..];
      assert p[|from|..] == q[|to|..];
      assert Rebase(p, from, to) == q;
    }
    forall q | q in moved
      ensures CopyTarget(t, q, from, to)
    {
      var p :| p in t.files && Below(p, from) && Rebase(p, from, to) == q;
      assert q[|to|..] == p[|from|..];
      assert p == from + p[|from|..];
    }
    var movedDirs := set d | d in t.dirs && Below(d, from) :: Rebase(d, from, to);
    FileTree(t.files + moved, t.dirs + Ancestry(to) + movedDirs)
  }
}

=== FILE: har.dfy ===
/** The hibernate archive (HAR) type. */
module Har {
  import opened Results
  import opened FileTrees
  import opened JavaStrings
  import opened Policies
  import opened Descriptors
  import opened Assembly
  import Packaging

  const ArtifactType := "jboss-har"
  const DefaultJbossVersion := "4"
  const HibernateDescriptor := "jboss-hibernate.xml"
  const HibernateService := "hibernate-service.xml"

  /**
   * The descriptor name: jboss-hibernate.xml when a JBoss version is set and
   * "5" does not come after it in String.compareTo order, else jboss-service.xml.
   */
  function DescriptorFilename(jbossVersion: Option<string>): (r: string)
    ensures r == HibernateDescriptor <==> jbossVersion.Some? && LexLessOrEqual("5", jbossVersion.value)
    ensures r == HibernateDescriptor || r == ServiceDescriptor
  {
    CompareToIsLexicographic("5", jbossVersion.GetOr(""));
    if jbossVersion.Some? && CompareTo("5", jbossVersion.value) <= 0 then HibernateDescriptor else ServiceDescriptor
  }

  /** Because the comparison is lexicographic, only the first char of the version decides: '5' or above. */
  lemma HibernateIffLeadingCharAtLeastFive(version: string)
    ensures DescriptorFilename(Some(version)) == HibernateDescriptor <==> |version| > 0 && version[0] >= '5'
  {
    if |version| > 0 && version[0] >= '5' {
      if version[0] == '5' {
        assert "5" == version[..1];
      } else {
        assert "5"[..0] == version[..0];
      }
    }
  }

  /** The default version "4" and an unset version give jboss-service.xml; "10" does too, being lexicographically below "5". */
  lemma ServiceDescriptorVersions()
    ensures DescriptorFilename(None) == ServiceDescriptor
    ensures DescriptorFilename(Some(DefaultJbossVersion)) == ServiceDescriptor
    ensures DescriptorFilename(Some("10")) == ServiceDescriptor
  {
    HibernateIffLeadingCharAtLeastFive(DefaultJbossVersion);
    HibernateIffLeadingCharAtLeastFive("10");
  }

  /** Versions "5", "5.1" and "6" give jboss-hibernate.xml. */
  lemma HibernateDescriptorVersions()
    ensures DescriptorFilename(Some("5")) == HibernateDescriptor
    ensures DescriptorFilename(Some("5.1")) == HibernateDescriptor
    ensures DescriptorFilename(Some("6")) == HibernateDescriptor
  {
    HibernateIffLeadingCharAtLeastFive("5");
    HibernateIffLeadingCharAtLeastFive("5.1");
    HibernateIffLeadingCharAtLeastFive("6");
  }

  /** The HAR package type: version-dependent descriptor, the single alternate hibernate-service.xml, type jboss-har, no specific step. */
  function HarPolicy(jbossVersion: Option<string>): (p: Policy)
    ensures p.descriptorName == DescriptorFilename(jbossVersion)
    ensures p.alternates == Some(["hibernate-service.xml"])
    ensures p.artifactType == "jboss-har"
    ensures p.hook == NoHook
  {
    Policy(DescriptorFilename(jbossVersion), Some([HibernateService]), ArtifactType, NoHook)
  }

  /** A staged META-INF/hibernate-service.xml stands in for a missing descriptor when no override is usable. */
  lemma HibernateServiceStandsIn(jbossVersion: Option<string>, t: FileTree, root: Path, override: Option<Path>)
    requires !Exists(t, Target(root, DescriptorFilename(jbossVersion)))
    requires !OverrideUsable(t, root, override)
    requires Target(root, HibernateService) in t.files
    ensures var r := ResolveDescriptor(t, root, HarPolicy(jbossVersion).descriptorName, HarPolicy(jbossVersion).alternates, override);
            && r.Success?
            && r.value.source == FromAlternate(HibernateService)
            && r.value.tree.files[Target(root, DescriptorFilename(jbossVersion))] == t.files[Target(root, HibernateService)]
  {
    var names := [HibernateService];
    assert MetaInfDir(root) + [names[0]] == Target(root, HibernateService);
  }

  /** HarMojo.execute: the exploded build alone when exploded, otherwise the full packaging with an archive. */
  function Execute(jbossVersion: Option<string>, c: Packaging.Config, exploded: bool, extension: string,
                   archiverFailure: Option<string>, t: FileTree): (r: Result<Outcome>)
    ensures exploded ==> (r.Success? <==> Packaging.BuildExploded(HarPolicy(jbossVersion), c, Some({}), t).Success?)
    ensures exploded && r.Success? ==> r.value == Outcome(Packaging.BuildExploded(HarPolicy(jbossVersion), c, Some({}), t).value, None, NotRegistered)
    ensures exploded && r.Failure? ==> r.error == Packaging.BuildExploded(HarPolicy(jbossVersion), c, Some({}), t).error
    ensures !exploded ==> r == Packaging.PerformPackaging(HarPolicy(jbossVersion), c, extension, archiverFailure, t)
  {
    Packaging.Execute(HarPolicy(jbossVersion), c, exploded, extension, archiverFailure, t)
  }
}

=== FILE: java_strings.dfy ===
/** The java.lang.String operations the packaging logic relies on. */
module JavaStrings {

  /**
   * String.compareTo: the difference of the first pair of differing chars,
   * or the difference of the lengths when one string is a prefix of the other.
   */
  function CompareTo(a: string, b: string): (r: int)
    ensures r == 0 <==> a == b
  {
    if |a| == 0 || |b| == 0 then |a| - |b|
    else if a[0] != b[0] then a[0] as int - b[0] as int
    else CompareTo(a[1..], b[1..])
  }

  /**
   * Lexicographic order defined by position: `a` is a prefix of `b`, or the
   * two first differ at an index where `a` holds the smaller char.
   */
  ghost predicate LexLessOrEqual(a: string, b: string) {
    || (|a| <= |b| && a == b[..|a|])
    || exists i :: 0 <= i < |a| && i < |b| && a[..i] == b[..i] && a[i] < b[i]
  }

  /** Strings with the same first char compare as their tails do. */
  lemma LexSameHead(a: string, b: string)
    requires |a| > 0 && |b| > 0 && a[0] == b[0]
    ensures LexLessOrEqual(a, b) <==> LexLessOrEqual(a[1..], b[1..])
  {
    var a', b' := a[1..], b[1..];
    if LexLessOrEqual(a', b') {
      if |a'| <= |b'| && a' == b'[..|a'|] {
        assert a == [a[0]] + a' && b[..|a|] == [b[0]] + b'[..|a'|];
      } else {
        var i :| 0 <= i < |a'| && i < |b'| && a'[..i] == b'[..i] && a'[i] < b'[i];
        assert a[..i + 1] == [a[0]] + a'[..i] && b[..i + 1] == [b[0]] + b'[..i];
      }
    }
    if LexLessOrEqual(a, b) {
      if |a| <= |b| && a == b[..|a|] {
        assert a' == b'[..|a'|];
      } else {
        var i :| 0 <= i < |a| && i < |b| && a[..i] == b[..i] && a[i] < b[i];
        assert i > 0;
        assert a'[..i - 1] == a[1..i] == b[1..i] == b'[..i - 1];
      }
    }
  }

  /** Strings whose first chars differ are ordered by those chars. */
  lemma LexHeadsDiffer(a: string, b: string)
    requires |a| > 0 && |b| > 0 && a[0] != b[0]
    ensures LexLessOrEqual(a, b) <==> a[0] < b[0]
  {
    if LexLessOrEqual(a, b) {
      assert |a| > |b| || a[0] != b[..|a|][0];
    }
    if a[0] < b[0] {
      assert a[..0] == b[..0];
    }
  }

  /** `CompareTo(a, b) <= 0` is exactly the lexicographic order. */
  lemma {:induction false} CompareToIsLexicographic(a: string, b: string)
    ensures CompareTo(a, b) <= 0 <==> LexLessOrEqual(a, b)
    decreases |a|
  {
    if |a| == 0 {
      assert a == b[..0];
    } else if |b| == 0 {
    } else if a[0] != b[0] {
      LexHeadsDiffer(a, b);
    } else {
      CompareToIsLexicographic(a[1..], b[1..]);
      LexSameHead(a, b);
    }
  }

  /** Every char is at most U+0020: exactly the chars String.trim strips. */
  predicate Blank(s: string) {
    forall i :: 0 <= i < |s| ==> s[i] <= ' '
  }

  /** The leading chars at most U+0020 removed, as the first loop of String.trim does. */
  function TrimLeading(s: string): string
    decreases |s|
  {
    if |s| > 0 && s[0] <= ' ' then TrimLeading(s[1..]) else s
  }

  /** TrimLeading removes a blank prefix and stops at a char that is not blank. */
  lemma {:induction false} TrimLeadingStrips(s: string)
    ensures var r := TrimLeading(s);
            && |r| <= |s| && r == s[|s| - |r|..] && Blank(s[..|s| - |r|])
            && (r == "" || r[0] > ' ')
    decreases |s|
  {
    if |s| > 0 && s[0] <= ' ' {
      TrimLeadingStrips(s[1..]);
      var r := TrimLeading(s);
      assert s[1..][|s| - 1 - |r|..] == s[|s| - |r|..];
      forall i | 0 <= i < |s| - |r|
        ensures s[i] <= ' '
      {
        if i > 0 {
          assert s[i] == s[1..][..|s| - 1 - |r|][i - 1];
        }
      }
    }
  }

  /** The trailing chars at most U+0020 removed, as the second loop of String.trim does. */
  function TrimTrailing(s: string): string
    decreases |s|
  {
    if |s| > 0 && s[|s| - 1] <= ' ' then TrimTrailing(s[..|s| - 1]) else s
  }

  /** TrimTrailing removes a blank suffix and stops at a char that is not blank. */
  lemma {:induction false} TrimTrailingStrips(s: string)
    ensures var r := TrimTrailing(s);
            && |r| <= |s| && r == s[..|r|] && Blank(s[|r|..])
            && (r == "" || r[|r| - 1] > ' ')
    decreases |s|
  {
    if |s| > 0 && s[|s| - 1] <= ' ' {
      var init := s[..|s| - 1];
      TrimTrailingStrips(init);
      var r := TrimTrailing(s);
      assert init[..|r|] == s[..|r|];
      forall i | |r| <= i < |s|
        ensures s[i] <= ' '
      {
        if i < |s| - 1 {
          assert s[i] == init[|r|..][i - |r|];
        }
      }
    }
  }

  /** String.trim. */
  function Trim(s: string): (r: string)
    ensures |r| <= |s|
    ensures r == "" || (r[0] > ' ' && r[|r| - 1] > ' ')
  {
    TrimLeadingStrips(s);
    TrimTrailingStrips(TrimLeading(s));
    TrimTrailing(TrimLeading(s))
  }

  /** Trim cuts off only blank chars: its result is a slice of `s` with a blank prefix and a blank suffix removed. */
  lemma TrimStripsBlankEnds(s: string)
    ensures exists i :: 0 <= i <= |s| - |Trim(s)| && Trim(s) == s[i..i + |Trim(s)|] && Blank(s[..i]) && Blank(s[i + |Trim(s)|..])
  {
    var lead := TrimLeading(s);
    TrimLeadingStrips(s);
    TrimTrailingStrips(lead);
    var i := |s| - |lead|;
    var r := TrimTrailing(lead);
    assert r == s[i..i + |r|];
    assert s[i + |r|..] == lead[|r|..];
  }

  /** `compareTo` is antisymmetric: swapping the arguments negates the result. */
  lemma {:induction false} CompareToAntisymmetric(a: string, b: string)
    ensures CompareTo(b, a) == -CompareTo(a, b)
    decreases |a|
  {
    if |a| > 0 && |b| > 0 && a[0] == b[0] {
      CompareToAntisymmetric(a[1..], b[1..]);
    }
  }

  /** A string trims to nothing exactly when every char of it is blank. */
  lemma {:induction false} TrimEmptyIffBlank(s: string)
    ensures Trim(s) == "" <==> Blank(s)
    decreases |s|
  {
    if |s| > 0 && s[0] <= ' ' {
      TrimEmptyIffBlank(s[1..]);
      assert Trim(s) == Trim(s[1..]);
      if Blank(s[1..]) {
        forall i | 0 <= i < |s|
          ensures s[i] <= ' '
        {
          if i > 0 {
            assert s[i] == s[1..][i - 1];
          }
        }
      }
    } else if |s| > 0 {
      assert TrimLeading(s) == s;
      assert TrimTrailing(s) != "" by {
        TrimTrailingKeepsFirst(s);
      }
    }
  }

  /** Trailing trimming keeps a first char that is not blank. */
  lemma {:induction false} TrimTrailingKeepsFirst(s: string)
    requires |s| > 0 && s[0] > ' '
    ensures |TrimTrailing(s)| > 0 && TrimTrailing(s)[0] == s[0]
    decreases |s|
  {
    if s[|s| - 1] <= ' ' {
      assert |s| > 1;
      TrimTrailingKeepsFirst(s[..|s| - 1]);
    }
  }

  /** The names separated by `sep`, in order. */
  function Join(names: seq<string>, sep: string): string {
    if |names| == 0 then ""
    else if |names| == 1 then names[0]
    else names[0] + sep + Join(names[1..], sep)
  }

  /** Appending one more name extends the joined text by the separator and that name. */
  lemma {:induction false} JoinAppend(names: seq<string>, x: string, sep: string)
    requires |names| > 0
    ensures Join(names + [x], sep) == Join(names, sep) + sep + x
    decreases |names|
  {
    if |names| > 1 {
      assert (names + [x])[1..] == names[1..] + [x];
      JoinAppend(names[1..], x, sep);
    }
  }
}

=== FILE: legacy_packaging.dfy ===
/**
 * The older org.apache packaging base class: a single descriptor (the
 * "packaging file") with no alternates, a jar-only dependency filter, copies
 * under the dependency's own file name, no type-specific step, and an archive
 * always set as the project's artifact file.
 */
module LegacyPackaging {
  import opened Results
  import opened FileTrees
  import opened Artifacts
  import opened Descriptors
  import opened Assembly
  import Dependencies

  const NotFoundPrefix := "Could not find the "
  const NotFoundSuffix := " file."

  /** The build's configured parameters, and the project's resolved artifacts in iteration order. */
  datatype LegacyConfig = LegacyConfig(
    outputDirectory: Path,
    classesDirectory: Path,
    packagingDirectory: Path,
    libDirectory: Path,
    packagingFile: Option<Path>,
    archiveName: string,
    excludes: Option<set<string>>,
    artifacts: seq<Artifact>)

  /** The tree after the directories are made and the classes are copied in. */
  function Staged(c: LegacyConfig, t: FileTree): FileTree {
    Prepare(t, c.classesDirectory, c.packagingDirectory, c.libDirectory)
  }

  /**
   * Ensure `root/META-INF/name` exists: keep it when present, else copy the
   * configured packaging file, else fail naming the file. No alternates.
   */
  function ResolvePackagingFile(t: FileTree, root: Path, name: string, packagingFile: Option<Path>): (r: Result<FileTree>)
    ensures Exists(t, Target(root, name)) ==> r == Success(t)
    ensures !Exists(t, Target(root, name)) && !OverrideUsable(t, root, packagingFile) ==>
              r == Failure(ExecutionError(NotFoundPrefix + name + NotFoundSuffix, None))
    ensures !Exists(t, Target(root, name)) && OverrideUsable(t, root, packagingFile) ==>
              && (r.Success? <==> packagingFile.value in t.files)
              && (r.Success? ==> Target(root, name) in r.value.files
                                 && r.value.files[Target(root, name)] == t.files[packagingFile.value])
    ensures r.Success? ==> Exists(r.value, Target(root, name)) && t.dirs <= r.value.dirs
    ensures r.Success? ==> forall q :: q in r.value.files ==> q in t.files || q == Target(root, name)
    ensures r.Success? ==> t.files.Keys <= r.value.files.Keys
    ensures r.Success? ==> forall q :: q in t.files && q != Target(root, name) ==> r.value.files[q] == t.files[q]
  {
    var target := Target(root, name);
    if Exists(t, target) then Success(t)
    else
      var prepared := WithMetaInf(t, root);
      if !OverrideUsable(t, root, packagingFile) then
        Failure(ExecutionError(NotFoundPrefix + name + NotFoundSuffix, None))
      else
        Copy(prepared, packagingFile.value, target)
  }

  /** Whether a dependency is copied: not optional, runtime scope, of type jar, and not excluded. */
  predicate Copied(a: Artifact, excludes: set<string>): (b: bool)
    ensures b ==> !a.optional && RuntimeScope(a.scope) && a.artifactType == "jar"
    ensures ExclusionKey(a) in excludes ==> !b
  {
    Dependencies.Considered(a) && a.artifactType == "jar" && ExclusionKey(a) !in excludes
  }

  /** The copied dependencies, in order. */
  function Selected(artifacts: seq<Artifact>, excludes: set<string>): (s: seq<Artifact>)
    ensures |s| <= |artifacts|
    decreases |artifacts|
  {
    if |artifacts| == 0 then []
    else
      var init := artifacts[..|artifacts| - 1];
      var last := artifacts[|artifacts| - 1];
      assert artifacts == init + [last];
      Selected(init, excludes) + (if Copied(last, excludes) then [last] else [])
  }

  /** The selection holds exactly the dependencies that are copied. */
  lemma {:induction false} SelectedMembers(artifacts: seq<Artifact>, excludes: set<string>)
    ensures forall a :: a in Selected(artifacts, excludes) <==> a in artifacts && Copied(a, excludes)
    decreases |artifacts|
  {
    if |artifacts| > 0 {
      var init, last := artifacts[..|artifacts| - 1], artifacts[|artifacts| - 1];
      SelectedMembers(init, excludes);
      assert artifacts == init + [last];
    }
  }

  /** Selecting from a concatenation selects from each part, in order: with SelectedSingle, the selection is the ordered filter by Copied. */
  lemma {:induction false} SelectedAppend(a: seq<Artifact>, b: seq<Artifact>, excludes: set<string>)
    ensures Selected(a + b, excludes) == Selected(a, excludes) + Selected(b, excludes)
    decreases |b|
  {
    if |b| == 0 {
      assert a + b == a;
    } else {
      var init, last := b[..|b| - 1], b[|b| - 1];
      SelectedAppend(a, init, excludes);
      assert a + b == (a + init) + [last];
      assert b == init + [last];
      SelectedSnoc(a + init, last, excludes);
      SelectedSnoc(init, last, excludes);
    }
  }

  /** Selecting from a sequence with one more dependency at the end. */
  lemma SelectedSnoc(s: seq<Artifact>, x: Artifact, excludes: set<string>)
    ensures Selected(s + [x], excludes) == Selected(s, excludes) + (if Copied(x, excludes) then [x] else [])
  {
    assert (s + [x])[..|s|] == s;
  }

  /** A single dependency is selected exactly when it is copied. */
  lemma SelectedSingle(x: Artifact, excludes: set<string>)
    ensures Selected([x], excludes) == if Copied(x, excludes) then [x] else []
  {
    assert [x][..0] == [];
  }

  /** Copy each dependency into `lib` under its own file name, in order; a missing source aborts. */
  function CopyAll(t: FileTree, lib: Path, artifacts: seq<Artifact>): (r: Result<FileTree>)
    ensures r.Failure? ==> r.error.IoError?
    decreases |artifacts|
  {
    if |artifacts| == 0 then Success(t)
    else
      var next :- CopyToDirectory(t, artifacts[0].file, lib);
      CopyAll(next, lib, artifacts[1..])
  }

  /** Where a dependency lands: `lib/<its own file name>`. */
  predicate LandsAt(a: Artifact, lib: Path, q: Path) {
    |a.file| > 0 && q == lib + [FileName(a.file)]
  }

  /** The tree after the first copy of `artifacts`. */
  function AfterFirstJar(t: FileTree, lib: Path, artifacts: seq<Artifact>): FileTree
    requires |artifacts| > 0 && CopyToDirectory(t, artifacts[0].file, lib).Success?
  {
    CopyToDirectory(t, artifacts[0].file, lib).value
  }

  /** A successful run made its first copy and then the rest. */
  lemma CopyAllFirst(t: FileTree, lib: Path, artifacts: seq<Artifact>)
    requires |artifacts| > 0 && CopyAll(t, lib, artifacts).Success?
    ensures CopyToDirectory(t, artifacts[0].file, lib).Success?
    ensures CopyAll(t, lib, artifacts) == CopyAll(AfterFirstJar(t, lib, artifacts), lib, artifacts[1..])
  {
  }

  /** When every source is an existing file, every copy succeeds. */
  lemma {:induction false} CopyAllSucceeds(t: FileTree, lib: Path, artifacts: seq<Artifact>)
    requires forall k :: 0 <= k < |artifacts| ==> artifacts[k].file in t.files && |artifacts[k].file| > 0
    ensures CopyAll(t, lib, artifacts).Success?
    decreases |artifacts|
  {
    if |artifacts| > 0 {
      var next := AfterFirstJar(t, lib, artifacts);
      var rest := artifacts[1..];
      assert forall k :: 0 <= k < |rest| ==> rest[k] == artifacts[k + 1];
      CopyAllSucceeds(next, lib, rest);
    }
  }

  /** Copies only add files and directories. */
  lemma {:induction false} CopyAllGrows(t: FileTree, lib: Path, artifacts: seq<Artifact>)
    requires CopyAll(t, lib, artifacts).Success?
    ensures t.files.Keys <= CopyAll(t, lib, artifacts).value.files.Keys
    ensures t.dirs <= CopyAll(t, lib, artifacts).value.dirs
    decreases |artifacts|
  {
    if |artifacts| > 0 {
      CopyAllFirst(t, lib, artifacts);
      var next := AfterFirstJar(t, lib, artifacts);
      assert t.dirs <= next.dirs;
      CopyAllGrows(next, lib, artifacts[1..]);
    }
  }

  /** After a successful run, every dependency is in `lib` under its own file name. */
  lemma {:induction false} CopyAllPlaces(t: FileTree, lib: Path, artifacts: seq<Artifact>)
    requires CopyAll(t, lib, artifacts).Success?
    ensures forall k :: 0 <= k < |artifacts| ==>
              |artifacts[k].file| > 0 && lib + [FileName(artifacts[k].file)] in CopyAll(t, lib, artifacts).value.files
    decreases |artifacts|
  {
    if |artifacts| > 0 {
      CopyAllFirst(t, lib, artifacts);
      var next, rest := AfterFirstJar(t, lib, artifacts), artifacts[1..];
      CopyAllGrows(next, lib, rest);
      CopyAllPlaces(next, lib, rest);
      assert |artifacts[0].file| > 0 && lib + [FileName(artifacts[0].file)] in next.files;
      forall k | 0 < k < |artifacts|
        ensures |artifacts[k].file| > 0 && lib + [FileName(artifacts[k].file)] in CopyAll(t, lib, artifacts).value.files
      {
        assert artifacts[k] == rest[k - 1];
      }
    }
  }

  /** The copies add no path but `lib/<file name>` of some dependency. */
  lemma {:induction false} CopyAllOnlyLib(t: FileTree, lib: Path, artifacts: seq<Artifact>)
    requires CopyAll(t, lib, artifacts).Success?
    ensures forall q :: q in CopyAll(t, lib, artifacts).value.files ==>
              q in t.files || exists a :: a in artifacts && LandsAt(a, lib, q)
    decreases |artifacts|
  {
    if |artifacts| > 0 {
      CopyAllFirst(t, lib, artifacts);
      var next, rest := AfterFirstJar(t, lib, artifacts), artifacts[1..];
      CopyAllOnlyLib(next, lib, rest);
      forall q | q in CopyAll(t, lib, artifacts).value.files && q !in t.files
        ensures exists a :: a in artifacts && LandsAt(a, lib, q)
      {
        if q in next.files {
          assert LandsAt(artifacts[0], lib, q);
        } else {
          var a :| a in rest && LandsAt(a, lib, q);
          assert a in artifacts;
        }
      }
    }
  }

  /** A file none of the copies lands on keeps its content. */
  lemma {:induction false} CopyAllKeeps(t: FileTree, lib: Path, artifacts: seq<Artifact>, q: Path)
    requires CopyAll(t, lib, artifacts).Success?
    requires q in t.files && forall k :: 0 <= k < |artifacts| ==> !LandsAt(artifacts[k], lib, q)
    ensures q in CopyAll(t, lib, artifacts).value.files
    ensures CopyAll(t, lib, artifacts).value.files[q] == t.files[q]
    decreases |artifacts|
  {
    if |artifacts| > 0 {
      CopyAllFirst(t, lib, artifacts);
      var next, rest := AfterFirstJar(t, lib, artifacts), artifacts[1..];
      assert !LandsAt(artifacts[0], lib, q);
      assert forall k :: 0 <= k < |rest| ==> rest[k] == artifacts[k + 1];
      CopyAllKeeps(next, lib, rest, q);
    }
  }

  /**
   * When no source lies directly in `lib`, each lib file holds the content of
   * the last dependency with that file name.
   */
  lemma {:induction false} CopyAllLastWins(t: FileTree, lib: Path, artifacts: seq<Artifact>, k: nat)
    requires k < |artifacts|
    requires forall i :: 0 <= i < |artifacts| ==>
               artifacts[i].file in t.files && |artifacts[i].file| > 0 && Parent(artifacts[i].file) != lib
    requires forall j :: k < j < |artifacts| ==> FileName(artifacts[j].file) != FileName(artifacts[k].file)
    ensures CopyAll(t, lib, artifacts).Success?
    ensures lib + [FileName(artifacts[k].file)] in CopyAll(t, lib, artifacts).value.files
    ensures CopyAll(t, lib, artifacts).value.files[lib + [FileName(artifacts[k].file)]] == t.files[artifacts[k].file]
    decreases |artifacts|
  {
    CopyAllSucceeds(t, lib, artifacts);
    if k == 0 {
      CopyAllFirstSurvives(t, lib, artifacts);
    } else {
      CopyAllFirst(t, lib, artifacts);
      AfterFirstJarKeepsSources(t, lib, artifacts);
      var next, rest := AfterFirstJar(t, lib, artifacts), artifacts[1..];
      assert rest[k - 1] == artifacts[k];
      LaterNamesDiffer(artifacts, k);
      CopyAllLastWins(next, lib, rest, k - 1);
    }
  }

  /** Dropping the first dependency keeps the later ones distinct in name from the k-th. */
  lemma LaterNamesDiffer(artifacts: seq<Artifact>, k: nat)
    requires 0 < k < |artifacts|
    requires forall i :: 0 <= i < |artifacts| ==> |artifacts[i].file| > 0
    requires forall j :: k < j < |artifacts| ==> FileName(artifacts[j].file) != FileName(artifacts[k].file)
    ensures forall j :: k - 1 < j < |artifacts| - 1 ==> FileName(artifacts[1..][j].file) != FileName(artifacts[1..][k - 1].file)
  {
    forall j | k - 1 < j < |artifacts| - 1
      ensures FileName(artifacts[1..][j].file) != FileName(artifacts[1..][k - 1].file)
    {
      assert artifacts[1..][j] == artifacts[j + 1];
    }
  }

  /** The first copy overwrites no source that lies outside `lib`. */
  lemma AfterFirstJarKeepsSources(t: FileTree, lib: Path, artifacts: seq<Artifact>)
    requires |artifacts| > 0
    requires forall i :: 0 <= i < |artifacts| ==>
               artifacts[i].file in t.files && |artifacts[i].file| > 0 && Parent(artifacts[i].file) != lib
    ensures CopyToDirectory(t, artifacts[0].file, lib).Success?
    ensures forall i :: 0 <= i < |artifacts| - 1 ==>
              var src := artifacts[1..][i].file;
              && src in AfterFirstJar(t, lib, artifacts).files && |src| > 0 && Parent(src) != lib
              && AfterFirstJar(t, lib, artifacts).files[src] == t.files[src]
  {
    var target := lib + [FileName(artifacts[0].file)];
    assert Parent(target) == lib;
    forall i | 0 <= i < |artifacts| - 1
      ensures artifacts[1..][i].file != target
    {
      assert artifacts[1..][i] == artifacts[i + 1];
    }
  }

  /** The first copy survives when no later dependency has its file name. */
  lemma CopyAllFirstSurvives(t: FileTree, lib: Path, artifacts: seq<Artifact>)
    requires |artifacts| > 0 && artifacts[0].file in t.files && |artifacts[0].file| > 0
    requires CopyAll(t, lib, artifacts).Success?
    requires forall j :: 0 < j < |artifacts| && |artifacts[j].file| > 0 ==> FileName(artifacts[j].file) != FileName(artifacts[0].file)
    ensures lib + [FileName(artifacts[0].file)] in CopyAll(t, lib, artifacts).value.files
    ensures CopyAll(t, lib, artifacts).value.files[lib + [FileName(artifacts[0].file)]] == t.files[artifacts[0].file]
  {
    CopyAllFirst(t, lib, artifacts);
    var next, rest := AfterFirstJar(t, lib, artifacts), artifacts[1..];
    var target := lib + [FileName(artifacts[0].file)];
    forall j | 0 <= j < |rest|
      ensures !LandsAt(rest[j], lib, target)
    {
      assert rest[j] == artifacts[j + 1];
      if |rest[j].file| > 0 {
        assert (lib + [FileName(rest[j].file)])[|lib|] == FileName(rest[j].file);
      }
    }
    assert next.files[target] == t.files[artifacts[0].file];
    CopyAllKeeps(next, lib, rest, target);
  }

  /** The packaging-file step of the build, on the staged tree. */
  function Resolved(packagingFilename: string, c: LegacyConfig, t: FileTree): Result<FileTree> {
    ResolvePackagingFile(Staged(c, t), c.packagingDirectory, packagingFilename, c.packagingFile)
  }

  /**
   * buildExplodedPackaging(excludes) of the older base: a null exclude set
   * counts as empty; make the directories and copy the classes; resolve the
   * packaging file; copy the selected jars. Nothing runs after the copy.
   */
  function BuildExploded(packagingFilename: string, c: LegacyConfig, excludes: Option<set<string>>, t: FileTree): (r: Result<FileTree>)
    ensures r.Failure? ==> r.error.ExecutionError?
  {
    var resolved :- WrapIo(Resolved(packagingFilename, c, t));
    WrapIo(CopyAll(resolved, c.libDirectory, Selected(c.artifacts, excludes.GetOr({}))))
  }

  /**
   * A successful build leaves in place the packaging file, the packaging and
   * lib directories, and every selected jar under its own file name.
   */
  lemma BuildExplodedCreates(packagingFilename: string, c: LegacyConfig, excludes: Option<set<string>>, t: FileTree)
    ensures BuildExploded(packagingFilename, c, excludes, t).Success? ==>
              var r := BuildExploded(packagingFilename, c, excludes, t).value;
              && Exists(r, Target(c.packagingDirectory, packagingFilename))
              && c.packagingDirectory in r.dirs && c.libDirectory in r.dirs
              && forall a :: a in Selected(c.artifacts, excludes.GetOr({})) ==>
                   |a.file| > 0 && c.libDirectory + [FileName(a.file)] in r.files
  {
    if BuildExploded(packagingFilename, c, excludes, t).Success? {
      var resolved := Resolved(packagingFilename, c, t).value;
      var selected := Selected(c.artifacts, excludes.GetOr({}));
      CopyAllGrows(resolved, c.libDirectory, selected);
      CopyAllPlaces(resolved, c.libDirectory, selected);
      forall a | a in selected
        ensures |a.file| > 0 && c.libDirectory + [FileName(a.file)] in BuildExploded(packagingFilename, c, excludes, t).value.files
      {
        var k :| 0 <= k < |selected| && selected[k] == a;
      }
    }
  }

  /** A successful build adds no file but the packaging file and the selected jars. */
  lemma BuildExplodedOnlyAdds(packagingFilename: string, c: LegacyConfig, excludes: Option<set<string>>, t: FileTree)
    ensures BuildExploded(packagingFilename, c, excludes, t).Success? ==>
              forall q :: q in BuildExploded(packagingFilename, c, excludes, t).value.files ==>
                || q in Staged(c, t).files
                || q == Target(c.packagingDirectory, packagingFilename)
                || exists a :: a in Selected(c.artifacts, excludes.GetOr({})) && LandsAt(a, c.libDirectory, q)
  {
    if BuildExploded(packagingFilename, c, excludes, t).Success? {
      var resolved := Resolved(packagingFilename, c, t).value;
      CopyAllOnlyLib(resolved, c.libDirectory, Selected(c.artifacts, excludes.GetOr({})));
    }
  }

  /** A null exclude set behaves as the empty set. */
  lemma NullExcludesAreEmpty(packagingFilename: string, c: LegacyConfig, t: FileTree)
    ensures BuildExploded(packagingFilename, c, None, t) == BuildExploded(packagingFilename, c, Some({}), t)
  {
  }

  /** With no packaging file staged and no usable packaging file configured, the build fails naming the file. */
  lemma MissingPackagingFileFails(packagingFilename: string, c: LegacyConfig, excludes: Option<set<string>>, t: FileTree)
    requires !Exists(Staged(c, t), Target(c.packagingDirectory, packagingFilename))
    requires !OverrideUsable(Staged(c, t), c.packagingDirectory, c.packagingFile)
    ensures BuildExploded(packagingFilename, c, excludes, t)
            == Failure(ExecutionError(NotFoundPrefix + packagingFilename + NotFoundSuffix, None))
  {
  }

  /**
   * A failed packaging-file step ends the build: an I/O failure of its copy
   * becomes the wrapped "could not explode" failure, and the not-found
   * failure passes unchanged. No jar is copied after it.
   */
  lemma ResolveFailureIsWrapped(packagingFilename: string, c: LegacyConfig, excludes: Option<set<string>>, t: FileTree)
    requires Resolved(packagingFilename, c, t).Failure?
    ensures BuildExploded(packagingFilename, c, excludes, t) == WrapIo(Resolved(packagingFilename, c, t)).PropagateFailure()
  {
  }

  /** The build succeeds when the packaging-file step does and every selected jar exists once the classes are copied. */
  lemma BuildExplodedSucceedsWhen(packagingFilename: string, c: LegacyConfig, excludes: Option<set<string>>, t: FileTree)
    requires Resolved(packagingFilename, c, t).Success?
    requires forall k :: 0 <= k < |Selected(c.artifacts, excludes.GetOr({}))| ==>
               var src := Selected(c.artifacts, excludes.GetOr({}))[k].file;
               src in Staged(c, t).files && |src| > 0
    ensures BuildExploded(packagingFilename, c, excludes, t).Success?
  {
    var resolved := Resolved(packagingFilename, c, t).value;
    assert Staged(c, t).files.Keys <= resolved.files.Keys;
    CopyAllSucceeds(resolved, c.libDirectory, Selected(c.artifacts, excludes.GetOr({})));
  }

  /** A failed jar copy ends the build with the execution failure that wraps it. */
  lemma CopyFailureIsWrapped(packagingFilename: string, c: LegacyConfig, excludes: Option<set<string>>, t: FileTree)
    requires Resolved(packagingFilename, c, t).Success?
    requires CopyAll(Resolved(packagingFilename, c, t).value, c.libDirectory, Selected(c.artifacts, excludes.GetOr({}))).Failure?
    ensures BuildExploded(packagingFilename, c, excludes, t)
            == Failure(ExecutionError(ExplodeFailure,
                 Some(CopyAll(Resolved(packagingFilename, c, t).value, c.libDirectory, Selected(c.artifacts, excludes.GetOr({}))).error.reason)))
  {
  }

  /**
   * A lib file holds the last selected jar of its file name, as it stood once
   * the classes were copied in.
   */
  lemma BuildExplodedLibContent(packagingFilename: string, c: LegacyConfig, excludes: Option<set<string>>, t: FileTree, k: nat)
    requires Resolved(packagingFilename, c, t).Success?
    requires k < |Selected(c.artifacts, excludes.GetOr({}))|
    requires forall i :: 0 <= i < |Selected(c.artifacts, excludes.GetOr({}))| ==>
               var src := Selected(c.artifacts, excludes.GetOr({}))[i].file;
               && src in Staged(c, t).files && |src| > 0 && Parent(src) != c.libDirectory
               && src != Target(c.packagingDirectory, packagingFilename)
    requires forall j :: k < j < |Selected(c.artifacts, excludes.GetOr({}))| ==>
               FileName(Selected(c.artifacts, excludes.GetOr({}))[j].file) != FileName(Selected(c.artifacts, excludes.GetOr({}))[k].file)
    ensures BuildExploded(packagingFilename, c, excludes, t).Success?
    ensures c.libDirectory + [FileName(Selected(c.artifacts, excludes.GetOr({}))[k].file)] in BuildExploded(packagingFilename, c, excludes, t).value.files
    ensures BuildExploded(packagingFilename, c, excludes, t).value.files[c.libDirectory + [FileName(Selected(c.artifacts, excludes.GetOr({}))[k].file)]]
            == Staged(c, t).files[Selected(c.artifacts, excludes.GetOr({}))[k].file]
  {
    var resolved := Resolved(packagingFilename, c, t).value;
    var selected := Selected(c.artifacts, excludes.GetOr({}));
    forall i | 0 <= i < |selected|
      ensures selected[i].file in resolved.files && resolved.files[selected[i].file] == Staged(c, t).files[selected[i].file]
    {
    }
    CopyAllLastWins(resolved, c.libDirectory, selected, k);
    BuildExplodedAfterResolve(packagingFilename, c, excludes, t);
  }

  /** Once the packaging-file step succeeds, the build is the wrapped jar copy on its tree. */
  lemma BuildExplodedAfterResolve(packagingFilename: string, c: LegacyConfig, excludes: Option<set<string>>, t: FileTree)
    requires Resolved(packagingFilename, c, t).Success?
    ensures BuildExploded(packagingFilename, c, excludes, t)
            == WrapIo(CopyAll(Resolved(packagingFilename, c, t).value, c.libDirectory, Selected(c.artifacts, excludes.GetOr({}))))
  {
  }

  /**
   * performPackaging(archiveFile) of the older base: rebuild the exploded
   * tree, archive the packaging directory into `archiveFile`, and always set
   * it as the project's artifact file (no classifier, no handler).
   */
  function PerformPackaging(packagingFilename: string, c: LegacyConfig, archiveFile: Path, archiverFailure: Option<string>, t: FileTree): (r: Result<Outcome>)
    ensures r.Success? <==> BuildExploded(packagingFilename, c, c.excludes, t).Success? && archiverFailure.None?
    ensures BuildExploded(packagingFilename, c, c.excludes, t).Failure? ==> r == Failure(BuildExploded(packagingFilename, c, c.excludes, t).error)
    ensures BuildExploded(packagingFilename, c, c.excludes, t).Success? && archiverFailure.Some? ==> r == Failure(ArchiveError(archiverFailure.value))
    ensures r.Success? ==> r.value.tree == BuildExploded(packagingFilename, c, c.excludes, t).value
    ensures r.Success? ==> r.value.archive == Some(ArchiveOf(r.value.tree, c.packagingDirectory, archiveFile))
    ensures r.Success? ==> r.value.registration == Primary(archiveFile, None)
  {
    var tree :- BuildExploded(packagingFilename, c, c.excludes, t);
    if archiverFailure.Some? then Failure(ArchiveError(archiverFailure.value))
    else Success(Outcome(tree, Some(ArchiveOf(tree, c.packagingDirectory, archiveFile)), Primary(archiveFile, None)))
  }
}

=== FILE: packaging.dfy ===
/**
 * The org.codehaus packaging base class: the exploded build (classes copy,
 * descriptor resolution with alternates, dependency copy with renaming,
 * type-specific step), archive naming, and archive registration.
 */
module Packaging {
  import opened Results
  import opened FileTrees
  import opened Artifacts
  import opened Policies
  import opened Descriptors
  import opened Dependencies
  import opened Assembly
  import opened JavaStrings
  import Esb

  /** The build's configured parameters, and the project's resolved artifacts in iteration order. */
  datatype Config = Config(
    outputDirectory: Path,
    classesDirectory: Path,
    packagingDirectory: Path,
    libDirectory: Path,
    deploymentDescriptorFile: Option<Path>,
    archiveName: string,
    excludeAll: bool,
    excludes: Option<set<string>>,
    classifier: Option<string>,
    primaryArtifact: bool,
    artifacts: seq<Artifact>)

  /** The tree after the directories are made and the classes are copied in. */
  function Staged(c: Config, t: FileTree): FileTree {
    Prepare(t, c.classesDirectory, c.packagingDirectory, c.libDirectory)
  }

  /** The dependency copies the build plans under exclude set `excludes`. */
  function Planned(c: Config, excludes: set<string>): seq<Placement> {
    Select(c.artifacts, c.excludeAll, excludes).placements
  }

  /** The only file a type-specific step may write. */
  function HookTargets(h: Hook, outputDirectory: Path): set<Path> {
    match h
    case NoHook => {}
    case DeploymentXmlHook(x) => if x.Some? then {Esb.DeploymentXmlTarget(outputDirectory)} else {}
  }

  /** Run the package type's specific step. */
  function RunHook(h: Hook, t: FileTree, outputDirectory: Path, excludes: set<string>): (r: Result<FileTree>)
    ensures r.Failure? ==> r.error.IoError?
    ensures r.Success? ==> t.files.Keys <= r.value.files.Keys && t.dirs <= r.value.dirs
    ensures r.Success? ==> forall q :: q in r.value.files ==> q in t.files || q in HookTargets(h, outputDirectory)
    ensures r.Success? ==> forall q :: q in t.files && q !in HookTargets(h, outputDirectory) ==> r.value.files[q] == t.files[q]
    // a package type without a specific step leaves the tree as it is
    ensures h.NoHook? ==> r == Success(t)
    ensures h.DeploymentXmlHook? && h.deploymentXml.Some? ==> (r.Success? <==> h.deploymentXml.value in t.files)
    // the ESB step with no deployment.xml configured does nothing
    ensures h.DeploymentXmlHook? && h.deploymentXml.None? ==> r == Success(t)
    ensures h.DeploymentXmlHook? ==> r == Esb.SpecificPackaging(t, outputDirectory, h.deploymentXml, excludes)
  {
    match h
    case NoHook => Success(t)
    case DeploymentXmlHook(x) => Esb.SpecificPackaging(t, outputDirectory, x, excludes)
  }

  /**
   * buildExplodedPackaging(excludes): a null exclude set counts as empty;
   * make the directories and copy the classes; resolve the descriptor; copy
   * the selected dependencies into the lib directory; run the type-specific
   * step. I/O failures are reported wrapped; a missing descriptor is
   * reported as it is.
   */
  function BuildExploded(p: Policy, c: Config, excludes: Option<set<string>>, t: FileTree): (r: Result<FileTree>)
    ensures r.Failure? ==> r.error.ExecutionError?
  {
    var ex := excludes.GetOr({});
    var resolved :- WrapIo(Resolved(p, c, t));
    var withLibs :- WrapIo(WithLibs(p, c, ex, t));
    WrapIo(RunHook(p.hook, withLibs, c.outputDirectory, ex))
  }

  /** The descriptor step of the build, on the staged tree. */
  function Resolved(p: Policy, c: Config, t: FileTree): Result<Resolution> {
    ResolveDescriptor(Staged(c, t), c.packagingDirectory, p.descriptorName, p.alternates, c.deploymentDescriptorFile)
  }

  /** The dependency copies, on the tree the descriptor step produced. */
  function WithLibs(p: Policy, c: Config, excludes: set<string>, t: FileTree): Result<FileTree>
    requires Resolved(p, c, t).Success?
  {
    CopyPlacements(Resolved(p, c, t).value.tree, c.libDirectory, Planned(c, excludes))
  }

  /** A successful build passed the descriptor step and the copies, and ended with the type-specific step. */
  lemma BuildExplodedSteps(p: Policy, c: Config, excludes: Option<set<string>>, t: FileTree)
    requires BuildExploded(p, c, excludes, t).Success?
    ensures Resolved(p, c, t).Success? && WithLibs(p, c, excludes.GetOr({}), t).Success?
    ensures RunHook(p.hook, WithLibs(p, c, excludes.GetOr({}), t).value, c.outputDirectory, excludes.GetOr({})).Success?
    ensures BuildExploded(p, c, excludes, t).value
            == RunHook(p.hook, WithLibs(p, c, excludes.GetOr({}), t).value, c.outputDirectory, excludes.GetOr({})).value
  {
  }

  /**
   * A successful build leaves in place the descriptor, the packaging and lib
   * directories (lib is never removed), and every planned lib file.
   */
  lemma BuildExplodedCreates(p: Policy, c: Config, excludes: Option<set<string>>, t: FileTree)
    ensures BuildExploded(p, c, excludes, t).Success? ==>
              var r := BuildExploded(p, c, excludes, t).value;
              && Exists(r, Target(c.packagingDirectory, p.descriptorName))
              && c.packagingDirectory in r.dirs && c.libDirectory in r.dirs
              && forall k :: 0 <= k < |Planned(c, excludes.GetOr({}))| ==>
                   c.libDirectory + [Planned(c, excludes.GetOr({}))[k].name] in r.files
  {
    if BuildExploded(p, c, excludes, t).Success? {
      var ex := excludes.GetOr({});
      BuildExplodedSteps(p, c, excludes, t);
      var resolved := Resolved(p, c, t).value.tree;
      CopyPlacementsGrows(resolved, c.libDirectory, Planned(c, ex));
      CopyPlacementsPlaces(resolved, c.libDirectory, Planned(c, ex));
    }
  }

  /**
   * A successful build adds no file but the descriptor, the planned lib
   * files and the type-specific target.
   */
  lemma BuildExplodedOnlyAdds(p: Policy, c: Config, excludes: Option<set<string>>, t: FileTree)
    ensures BuildExploded(p, c, excludes, t).Success? ==>
              forall q :: q in BuildExploded(p, c, excludes, t).value.files ==>
                || q in Staged(c, t).files
                || q == Target(c.packagingDirectory, p.descriptorName)
                || (exists k :: 0 <= k < |Planned(c, excludes.GetOr({}))| && q == c.libDirectory + [Planned(c, excludes.GetOr({}))[k].name])
                || q in HookTargets(p.hook, c.outputDirectory)
  {
    if BuildExploded(p, c, excludes, t).Success? {
      var ex := excludes.GetOr({});
      BuildExplodedSteps(p, c, excludes, t);
      var resolved := Resolved(p, c, t).value.tree;
      CopyPlacementsOnlyLib(resolved, c.libDirectory, Planned(c, ex));
    }
  }

  /**
   * The build succeeds when the descriptor step does, every planned
   * dependency file exists once the classes are copied, and so does the
   * configured deployment.xml of a type-specific step.
   */
  lemma BuildExplodedSucceedsWhen(p: Policy, c: Config, excludes: Option<set<string>>, t: FileTree)
    requires Resolved(p, c, t).Success?
    requires forall k :: 0 <= k < |Planned(c, excludes.GetOr({}))| ==> Planned(c, excludes.GetOr({}))[k].artifact.file in Staged(c, t).files
    requires p.hook.DeploymentXmlHook? && p.hook.deploymentXml.Some? ==> p.hook.deploymentXml.value in Staged(c, t).files
    ensures BuildExploded(p, c, excludes, t).Success?
  {
    var ex := excludes.GetOr({});
    var resolved := Resolved(p, c, t).value.tree;
    var ps := Planned(c, ex);
    ResolvedGrows(p, c, t);
    CopyPlacementsSucceeds(resolved, c.libDirectory, ps);
    CopyPlacementsGrows(resolved, c.libDirectory, ps);
    var libs := WithLibs(p, c, ex, t).value;
    assert Staged(c, t).files.Keys <= libs.files.Keys;
    assert RunHook(p.hook, libs, c.outputDirectory, ex).Success?;
    BuildExplodedFromSteps(p, c, excludes, t);
  }

  /** The descriptor step removes no file. */
  lemma ResolvedGrows(p: Policy, c: Config, t: FileTree)
    requires Resolved(p, c, t).Success?
    ensures Staged(c, t).files.Keys <= Resolved(p, c, t).value.tree.files.Keys
  {
  }

  /** Steps that all succeed make a successful build whose tree is the type-specific step's. */
  lemma BuildExplodedFromSteps(p: Policy, c: Config, excludes: Option<set<string>>, t: FileTree)
    requires Resolved(p, c, t).Success? && WithLibs(p, c, excludes.GetOr({}), t).Success?
    requires RunHook(p.hook, WithLibs(p, c, excludes.GetOr({}), t).value, c.outputDirectory, excludes.GetOr({})).Success?
    ensures BuildExploded(p, c, excludes, t)
            == Success(RunHook(p.hook, WithLibs(p, c, excludes.GetOr({}), t).value, c.outputDirectory, excludes.GetOr({})).value)
  {
  }

  /** A failed dependency copy ends the build with the execution failure that wraps it. */
  lemma LibCopyFailureIsWrapped(p: Policy, c: Config, excludes: Option<set<string>>, t: FileTree)
    requires Resolved(p, c, t).Success? && WithLibs(p, c, excludes.GetOr({}), t).Failure?
    ensures BuildExploded(p, c, excludes, t)
            == Failure(ExecutionError(ExplodeFailure, Some(WithLibs(p, c, excludes.GetOr({}), t).error.reason)))
  {
  }

  /** A failed type-specific step ends the build with the execution failure that wraps it. */
  lemma HookFailureIsWrapped(p: Policy, c: Config, excludes: Option<set<string>>, t: FileTree)
    requires Resolved(p, c, t).Success? && WithLibs(p, c, excludes.GetOr({}), t).Success?
    requires RunHook(p.hook, WithLibs(p, c, excludes.GetOr({}), t).value, c.outputDirectory, excludes.GetOr({})).Failure?
    ensures BuildExploded(p, c, excludes, t)
            == Failure(ExecutionError(ExplodeFailure,
                 Some(RunHook(p.hook, WithLibs(p, c, excludes.GetOr({}), t).value, c.outputDirectory, excludes.GetOr({})).error.reason)))
  {
  }

  /**
   * A descriptor file the descriptor step left in place (a directory of that
   * name also counts as present) keeps its content to the end of the build,
   * unless a dependency copy or the type-specific step writes the same path.
   */
  lemma BuildExplodedKeepsDescriptor(p: Policy, c: Config, excludes: Option<set<string>>, t: FileTree)
    requires BuildExploded(p, c, excludes, t).Success?
    requires c.libDirectory != MetaInfDir(c.packagingDirectory)
    requires Target(c.packagingDirectory, p.descriptorName) !in HookTargets(p.hook, c.outputDirectory)
    requires Target(c.packagingDirectory, p.descriptorName) in Resolved(p, c, t).value.tree.files
    ensures Target(c.packagingDirectory, p.descriptorName) in BuildExploded(p, c, excludes, t).value.files
    ensures BuildExploded(p, c, excludes, t).value.files[Target(c.packagingDirectory, p.descriptorName)]
            == Resolved(p, c, t).value.tree.files[Target(c.packagingDirectory, p.descriptorName)]
  {
    var ex := excludes.GetOr({});
    BuildExplodedSteps(p, c, excludes, t);
    var resolved := Resolved(p, c, t).value.tree;
    var target := Target(c.packagingDirectory, p.descriptorName);
    var ps := Planned(c, ex);
    forall k | 0 <= k < |ps|
      ensures target != c.libDirectory + [ps[k].name]
    {
      assert Parent(target) == MetaInfDir(c.packagingDirectory);
      assert Parent(c.libDirectory + [ps[k].name]) == c.libDirectory;
    }
    CopyPlacementsKeeps(resolved, c.libDirectory, ps, target);
  }

  /**
   * A lib file holds the last planned dependency of its name, as it stood
   * once the classes were copied in, unless the type-specific step writes
   * the same path.
   */
  lemma BuildExplodedLibContent(p: Policy, c: Config, excludes: Option<set<string>>, t: FileTree, k: nat)
    requires BuildExploded(p, c, excludes, t).Success?
    requires k < |Planned(c, excludes.GetOr({}))|
    requires forall i :: 0 <= i < |Planned(c, excludes.GetOr({}))| ==>
               var src := Planned(c, excludes.GetOr({}))[i].artifact.file;
               src in Staged(c, t).files && Parent(src) != c.libDirectory && src != Target(c.packagingDirectory, p.descriptorName)
    requires forall j :: k < j < |Planned(c, excludes.GetOr({}))| ==> Planned(c, excludes.GetOr({}))[j].name != Planned(c, excludes.GetOr({}))[k].name
    requires c.libDirectory + [Planned(c, excludes.GetOr({}))[k].name] !in HookTargets(p.hook, c.outputDirectory)
    ensures c.libDirectory + [Planned(c, excludes.GetOr({}))[k].name] in BuildExploded(p, c, excludes, t).value.files
    ensures BuildExploded(p, c, excludes, t).value.files[c.libDirectory + [Planned(c, excludes.GetOr({}))[k].name]]
            == Staged(c, t).files[Planned(c, excludes.GetOr({}))[k].artifact.file]
  {
    var ex := excludes.GetOr({});
    BuildExplodedSteps(p, c, excludes, t);
    var resolved := Resolved(p, c, t).value.tree;
    var ps := Planned(c, ex);
    forall i | 0 <= i < |ps|
      ensures ps[i].artifact.file in resolved.files && resolved.files[ps[i].artifact.file] == Staged(c, t).files[ps[i].artifact.file]
    {
    }
    LastCopyWins(resolved, c.libDirectory, ps, k);
  }

  /** A failed descriptor step ends the build with that failure, before any dependency is copied. */
  lemma DescriptorFailureAborts(p: Policy, c: Config, excludes: Option<set<string>>, t: FileTree)
    requires Resolved(p, c, t).Failure?
    ensures BuildExploded(p, c, excludes, t) == WrapIo(Resolved(p, c, t)).PropagateFailure()
  {
  }

  /** A null exclude set behaves as the empty set. */
  lemma NullExcludesAreEmpty(p: Policy, c: Config, t: FileTree)
    ensures BuildExploded(p, c, None, t) == BuildExploded(p, c, Some({}), t)
  {
  }

  /** With excludeAll set, nothing is written into the lib directory: only the descriptor and the type-specific file are added. */
  lemma ExcludeAllWritesNoDependency(p: Policy, c: Config, excludes: Option<set<string>>, t: FileTree)
    requires c.excludeAll
    ensures BuildExploded(p, c, excludes, t).Success? ==> forall q :: q in BuildExploded(p, c, excludes, t).value.files ==>
              || q in Staged(c, t).files
              || q == Target(c.packagingDirectory, p.descriptorName)
              || q in HookTargets(p.hook, c.outputDirectory)
  {
    ExcludeAllCopiesNothing(c.artifacts, excludes.GetOr({}));
    BuildExplodedOnlyAdds(p, c, excludes, t);
  }

  /**
   * A descriptor already staged (for instance by the classes copy) decides
   * the descriptor step: the override file and the alternates are ignored.
   */
  lemma StagedDescriptorIgnoresOverrideAndAlternates(p: Policy, c: Config, excludes: Option<set<string>>, t: FileTree,
                                                     override: Option<Path>, alternates: Option<seq<string>>)
    requires Exists(Staged(c, t), Target(c.packagingDirectory, p.descriptorName))
    ensures BuildExploded(p, c, excludes, t)
            == BuildExploded(p.(alternates := alternates), c.(deploymentDescriptorFile := override), excludes, t)
  {
  }

  /** The archive file: `outputDirectory/archiveName[-classifier].extension`, the classifier omitted when IsEmpty holds of it. */
  function CalculateFile(outputDirectory: Path, archiveName: string, classifier: Option<string>, extension: string): (f: Path)
    ensures |f| == |outputDirectory| + 1 && f[..|outputDirectory|] == outputDirectory
    ensures f[|outputDirectory|] == Qualified(archiveName, classifier, extension)
  {
    outputDirectory + [Qualified(archiveName, classifier, extension)]
  }

  /** Two archive files of one directory, name and extension coincide exactly when their classifiers show the same. */
  lemma CalculateFileDeterminesClassifier(outputDirectory: Path, archiveName: string, c1: Option<string>, c2: Option<string>, extension: string)
    ensures CalculateFile(outputDirectory, archiveName, c1, extension) == CalculateFile(outputDirectory, archiveName, c2, extension)
            <==> ClassifierText(c1) == ClassifierText(c2)
  {
    QualifiedDeterminesClassifier(archiveName, c1, c2, extension);
    var f1, f2 := CalculateFile(outputDirectory, archiveName, c1, extension), CalculateFile(outputDirectory, archiveName, c2, extension);
    if f1 == f2 {
      assert f1[|outputDirectory|] == f2[|outputDirectory|];
    }
  }

  /**
   * The registration branch: a set classifier (even a blank one) attaches
   * the archive; otherwise a primary build sets it, with the handler, as the
   * project's artifact; otherwise nothing is registered.
   */
  function Register(classifier: Option<string>, primaryArtifact: bool, handler: Handler, file: Path): (r: Registration)
    ensures classifier.Some? ==> r.Attached? && r.classifier == classifier.value && r.artifactType == handler.artifactType
    ensures classifier.None? ==> (r.Primary? <==> primaryArtifact) && (r.NotRegistered? <==> !primaryArtifact)
    ensures r.Primary? ==> r.handler == Some(handler)
    ensures !r.NotRegistered? ==> r.file == file
  {
    if classifier.Some? then Attached(handler.artifactType, classifier.value, file)
    else if primaryArtifact then Primary(file, Some(handler))
    else NotRegistered
  }

  /**
   * performPackaging: compute the archive file, rebuild the exploded tree,
   * archive the packaging directory and register the archive. `extension` is
   * what the artifact handler of the package type answers;
   * `archiverFailure` is the archive writer's failure, if it fails.
   */
  function PerformPackaging(p: Policy, c: Config, extension: string, archiverFailure: Option<string>, t: FileTree): (r: Result<Outcome>)
    ensures r.Success? <==> BuildExploded(p, c, c.excludes, t).Success? && archiverFailure.None?
    ensures BuildExploded(p, c, c.excludes, t).Failure? ==> r == Failure(BuildExploded(p, c, c.excludes, t).error)
    ensures r.Success? ==> r.value.tree == BuildExploded(p, c, c.excludes, t).value
    ensures r.Success? ==>
              && r.value.archive.Some?
              && r.value.archive.value.file == CalculateFile(c.outputDirectory, c.archiveName, c.classifier, extension)
              && r.value.archive.value.entries == SubTree(r.value.tree, c.packagingDirectory)
    ensures BuildExploded(p, c, c.excludes, t).Success? && archiverFailure.Some? ==> r == Failure(ArchiveError(archiverFailure.value))
    ensures r.Success? && c.classifier.Some? ==>
              r.value.registration == Attached(p.artifactType, c.classifier.value, r.value.archive.value.file)
    ensures r.Success? && c.classifier.None? && c.primaryArtifact ==>
              r.value.registration == Primary(r.value.archive.value.file, Some(Handler(p.artifactType, extension)))
    ensures r.Success? && c.classifier.None? && !c.primaryArtifact ==> r.value.registration == NotRegistered
  {
    var handler := Handler(p.artifactType, extension);
    var archiveFile := CalculateFile(c.outputDirectory, c.archiveName, c.classifier, extension);
    var tree :- BuildExploded(p, c, c.excludes, t);
    if archiverFailure.Some? then
      Failure(ArchiveError(archiverFailure.value))
    else
      Success(Outcome(tree, Some(ArchiveOf(tree, c.packagingDirectory, archiveFile)), Register(c.classifier, c.primaryArtifact, handler, archiveFile)))
  }

  /** A blank classifier still attaches the archive, although the file name leaves the classifier out. */
  lemma EmptyClassifierAttachesPlainName(p: Policy, c: Config, extension: string, t: FileTree)
    requires c.classifier.Some? && Blank(c.classifier.value)
    ensures PerformPackaging(p, c, extension, None, t).Success? ==>
            var o := PerformPackaging(p, c, extension, None, t).value;
            && o.archive.value.file == c.outputDirectory + [c.archiveName + "." + extension]
            && o.registration == Attached(p.artifactType, c.classifier.value, o.archive.value.file)
  {
  }

  /**
   * The execute goal of a package type: when exploded, only the exploded
   * build runs (with the empty exclude set of the no-argument overload);
   * otherwise performPackaging runs.
   */
  function Execute(p: Policy, c: Config, exploded: bool, extension: string, archiverFailure: Option<string>, t: FileTree): (r: Result<Outcome>)
    ensures exploded ==> (r.Success? <==> BuildExploded(p, c, Some({}), t).Success?)
    ensures exploded && r.Success? ==>
              r.value == Outcome(BuildExploded(p, c, Some({}), t).value, None, NotRegistered)
    // the exploded build's exception reaches the caller unchanged
    ensures exploded && r.Failure? ==> BuildExploded(p, c, Some({}), t).Failure? && r.error == BuildExploded(p, c, Some({}), t).error
    ensures !exploded ==> r == PerformPackaging(p, c, extension, archiverFailure, t)
  {
    if exploded then
      var tree :- BuildExploded(p, c, Some({}), t);
      Success(Outcome(tree, None, NotRegistered))
    else
      PerformPackaging(p, c, extension, archiverFailure, t)
  }

  /** In exploded mode the configured excludes play no part. */
  lemma ExplodedIgnoresConfiguredExcludes(p: Policy, c: Config, excludes: Option<set<string>>, extension: string,
                                          archiverFailure: Option<string>, t: FileTree)
    ensures Execute(p, c, true, extension, archiverFailure, t) == Execute(p, c.(excludes := excludes), true, extension, archiverFailure, t)
  {
  }
}

=== FILE: policy.dfy ===
/** What distinguishes one package type from another. */
module Policies {
  import opened Results
  import opened FileTrees

  /** The type-specific step run after the dependencies are copied. */
  datatype Hook =
    /** The base behaviour: nothing. */
    | NoHook
    /** The ESB step: copy the configured deployment.xml, when one is set, into the output directory's META-INF. */
    | DeploymentXmlHook(deploymentXml: Option<Path>)

  /**
   * A package type: its deployment descriptor name, the alternate names
   * searched when that descriptor is missing (`None` where the type does not
   * override the base's null), the type it registers its archive with, and
   * its specific packaging step.
   */
  datatype Policy = Policy(
    descriptorName: string,
    alternates: Option<seq<string>>,
    artifactType: string,
    hook: Hook)
}

=== FILE: results.dfy ===
/** Failure-compatible result types shared by every module of the model. */
module Results {

  /** A value that may be absent; stands for a Java reference that may be null. */
  datatype Option<+T> = None | Some(value: T) {

    /** The wrapped value, or `default` when absent. */
    function GetOr(default: T): T {
      match this
      case Some(v) => v
      case None => default
    }
  }

  /** The failures a packaging build can end with. */
  datatype Error =
    /** A java.io.IOException raised by a file operation. */
    | IoError(reason: string)
    /** A MojoExecutionException: a message and, when it wraps an I/O failure, that failure's reason. */
    | ExecutionError(message: string, cause: Option<string>)
    /** A failure reported by the archive writer. */
    | ArchiveError(reason: string)

  /** Either a computed value or the error that aborted the computation. */
  datatype Result<+T> = Success(value: T) | Failure(error: Error) {

    predicate IsFailure() {
      Failure?
    }

    function PropagateFailure<U>(): Result<U>
      requires Failure?
    {
      Failure(error)
    }

    function Extract(): T
      requires Success?
    {
      value
    }
  }
}

=== FILE: sar.dfy ===
/** The service archive (SAR) type. */
module Sar {
  import opened Results
  import opened FileTrees
  import opened Policies
  import opened Descriptors
  import opened Assembly
  import Packaging

  const ArtifactType := "jboss-sar"

  /** The SAR package type: descriptor jboss-service.xml, no alternates (the base's null), type jboss-sar, no specific step. */
  function SarPolicy(): (p: Policy)
    ensures p.descriptorName == "jboss-service.xml"
    ensures p.alternates.None?
    ensures p.artifactType == "jboss-sar"
    ensures p.hook == NoHook
  {
    Policy(ServiceDescriptor, None, ArtifactType, NoHook)
  }

  /** A SAR build whose staged tree lacks the descriptor and has no usable override fails naming jboss-service.xml alone. */
  lemma MissingDescriptorFails(c: Packaging.Config, excludes: Option<set<string>>, t: FileTree)
    requires !Exists(Packaging.Staged(c, t), Target(c.packagingDirectory, ServiceDescriptor))
    requires !OverrideUsable(Packaging.Staged(c, t), c.packagingDirectory, c.deploymentDescriptorFile)
    ensures Packaging.BuildExploded(SarPolicy(), c, excludes, t)
            == Failure(ExecutionError(NotFoundMessage + "jboss-service.xml", None))
  {
    var p := SarPolicy();
    var staged := Packaging.Staged(c, t);
    NoAlternatesNamesOnlyPrimary(staged, c.packagingDirectory, ServiceDescriptor, c.deploymentDescriptorFile);
    var e := ExecutionError(NotFoundMessage + ServiceDescriptor, None);
    assert ResolveDescriptor(staged, c.packagingDirectory, p.descriptorName, p.alternates, c.deploymentDescriptorFile) == Failure(e);
    Packaging.DescriptorFailureAborts(p, c, excludes, t);
    assert WrapIo(Result<Resolution>.Failure(e)) == Failure(e);
  }

  /** SarMojo.execute: the exploded build alone when exploded, otherwise the full packaging with an archive. */
  function Execute(c: Packaging.Config, exploded: bool, extension: string, archiverFailure: Option<string>, t: FileTree): (r: Result<Outcome>)
    ensures exploded ==> (r.Success? <==> Packaging.BuildExploded(SarPolicy(), c, Some({}), t).Success?)
    ensures exploded && r.Success? ==> r.value == Outcome(Packaging.BuildExploded(SarPolicy(), c, Some({}), t).value, None, NotRegistered)
    ensures exploded && r.Failure? ==> r.error == Packaging.BuildExploded(SarPolicy(), c, Some({}), t).error
    ensures !exploded ==> r == Packaging.PerformPackaging(SarPolicy(), c, extension, archiverFailure, t)
  {
    Packaging.Execute(SarPolicy(), c, exploded, extension, archiverFailure, t)
  }
}
